=== FILE: README.md ===
# Investwise server core, modelled in Dafny

Investwise is a small investment-advice server. A user fills in a six-question
risk questionnaire. The server scores the answers into a risk profile
(Conservative, Moderate or Aggressive), an asset allocation and a written
description. It then picks matching stocks from a document store. Two
operations write to the store:

- the AI-pick sync runs inside each request to the stock-picks route: it
  writes quotes for the stocks the language model suggested and returns the
  stored documents to that request;
- the momentum refresh is the one background job, scheduled every six hours:
  it writes price changes computed from daily histories.

This project models that core as pure Dafny functions over immutable data:

| module | file | what it models |
|---|---|---|
| `Wrappers` | wrappers.dfy | `Option`, standing for a JavaScript value that may be `null`/`undefined` |
| `Text` | text.dfy | truthiness of strings, ASCII `toUpperCase`, JavaScript `trim` |
| `StockModel` | stock.dfy | the stock document, its schema defaults, the store as a map keyed by `symbol` |
| `RiskEngine` | risk_engine.dfy | `calculateRiskProfile`: score, tier, allocation, description |
| `QueryModel` | query.dfy | the store queries the routes issue (`riskBucket` equality / `$in`, `$and` of `$or`s of `$lte` / `$exists: false`) and what a faithful store answer is |
| `RecommendRoutes` | recommend_routes.dfy | `POST /api/recommendations` and its `computeMomentum` |
| `AiAdviceRoutes` | ai_advice_routes.dfy | `buildStockQueryForRisk` and `POST /api/ai-advice` up to the language-model call |
| `SelectionAgreement` | selection_agreement.dfy | the two copies of the tier-to-query mapping agree |
| `AiStockSync` | ai_stock_sync.dfy | `toYahooSymbol`, `deriveMomentum`, `syncAIStocks` |
| `Sequences` | sequences.dfy | subsequences and the positions a predicate picks out |
| `SyncLaws` | sync_laws.dfy | laws of the sync run: frame, abort condition, order, idempotence |
| `MarketData` | market_data.dfy | both `computeChangesFromSeries` variants, `updateStockMomentum`, `updateAllStocksMomentum` |

External effects become parameters:

- the store's `find` is a function `StockFind -> Option<seq<StockRecord>>`, where `None` means it threw;
- the quote provider is `string -> Option<Quote>`, one reply per quote symbol for the whole run;
- the history provider is `string -> HistoryReply`;
- store write failures are predicates on the key;
- clock readings are integer parameters, one per run.

Four behaviours of the code are easy to miss:

- the momentum refresh returns nothing; it reports no count of updated symbols;
- a history with fewer than two closes still writes `lastUpdated`;
- the advice route answers 500 when no candidate stock matches, and rejects only a missing body;
- the sync keys documents by the suggested symbol upper-cased (`aiStockSync.js:76`), not by the exchange-qualified quote symbol.

All source paths below are relative to the repository root.

## Model

| member | source | states |
|---|---|---|
| Text.ToUpper | server/src/services/aiStockSync.js:12 | upper-casing keeps the length, maps each lower-case ASCII letter to its capital, leaves every other character alone and leaves no lower-case letter |
| Text.ToUpperIdempotent | server/src/services/aiStockSync.js:12 | upper-casing twice is upper-casing once |
| Text.Trim | server/src/services/aiStockSync.js:12 | trimming never lengthens a string, leaves no whitespace at either end, and returns a slice of the input with only whitespace cut off before and after it |
| Text.TrimDropsPadding | server/src/services/aiStockSync.js:12 | any whitespace before and after a trimmed string is removed, and nothing else |
| Text.TrimKeepsTrimmed | server/src/services/aiStockSync.js:12 | a string with no surrounding whitespace is its own trim |
| Text.TrimIdempotent | server/src/services/aiStockSync.js:12 | trimming twice is trimming once |
| StockModel.NewRecordDefaults | server/src/models/Stock.js:4-42 | a document created by an upsert gets exchange NSE, neutral momentum, the insertion time, no numeric fields, and sits under its own symbol |
| RiskEngine.AgeAdjustment | server/src/services/riskEngine.js:36-40 | the age answer's adjustment is its table entry (+10, +8, +4, +1, -4), 0 for any other answer, and lies in [-4, 10] |
| RiskEngine.HorizonAdjustment | server/src/services/riskEngine.js:43-46 | the horizon adjustment is its table entry, with both spellings of "5-10 years" giving +10, 0 otherwise, within [-5, 15] |
| RiskEngine.EmergencyFundAdjustment | server/src/services/riskEngine.js:49-50 | +5 for "yes", -10 for "no", 0 otherwise |
| RiskEngine.IncomeAdjustment | server/src/services/riskEngine.js:53-57 | the income adjustment is its table entry, 0 otherwise, within [-3, 8] |
| RiskEngine.DrawdownAdjustment | server/src/services/riskEngine.js:60-63 | the drawdown-behaviour adjustment is its table entry, 0 otherwise, within [-20, 15] |
| RiskEngine.ToleranceAdjustment | server/src/services/riskEngine.js:66-68 | the self-declared tolerance adjustment is its table entry, 0 otherwise, within [-8, 10] |
| RiskEngine.Score | server/src/services/riskEngine.js:33-68 | the score is 50 plus the six table adjustments and always lies in [0, 113] |
| RiskEngine.UnansweredFormScoresBase | server/src/services/riskEngine.js:33 | a form with no recognised answer scores exactly the base 50 |
| RiskEngine.HorizonSpellingsAgree | server/src/services/riskEngine.js:44 | "5-10 years" and "5-10 Years" score identically for every other answer |
| RiskEngine.ScoreBoundsAttained | server/src/services/riskEngine.js:33-68 | 0 and 113 are both reached by some form, so the bounds are tight |
| RiskEngine.TierOf | server/src/services/riskEngine.js:72-80 | Conservative exactly when the score is at most 45, Aggressive exactly when at least 70, Moderate exactly in between |
| RiskEngine.TierMonotone | server/src/services/riskEngine.js:72-80 | a higher score never gives a lower tier |
| RiskEngine.TierBoundaries | server/src/services/riskEngine.js:74-76 | 45 is Conservative, 46 and 69 are Moderate, 70 is Aggressive |
| RiskEngine.AllocationFor | server/src/services/riskEngine.js:84-108 | every allocation is positive in each class, sums to 100, and is one of the three published mixes |
| RiskEngine.AllocationOrderedByRisk | server/src/services/riskEngine.js:84-108 | a riskier profile holds strictly more stocks and strictly fewer bonds |
| RiskEngine.AllocationIdentifiesProfile | server/src/services/riskEngine.js:84-108 | distinct profiles get distinct allocations |
| RiskEngine.Describe | server/src/services/riskEngine.js:112-141 | the description starts with the profile sentence and ends with the emergency-fund sentence |
| RiskEngine.DescriptionLayout | server/src/services/riskEngine.js:141 | the description is exactly the profile sentence, " Your answers suggest ", the horizon phrase, ". " and the emergency-fund sentence, each at its stated position |
| RiskEngine.DescriptionNamesHorizon | server/src/services/riskEngine.js:112-141 | for one profile and fund answer, two descriptions are equal exactly when their horizon phrases are |
| RiskEngine.DescriptionFallbacks | server/src/services/riskEngine.js:119-126 | an unrecognised horizon gives the generic horizon phrase and any fund answer other than "yes" gives the still-building sentence |
| RiskEngine.HorizonSpellingsDescribeAlike | server/src/services/riskEngine.js:117 | both spellings of "5-10 years" read as a long-term horizon |
| RiskEngine.DescriptionIdentifiesProfile | server/src/services/riskEngine.js:128-141 | descriptions of different profiles differ, whatever the other answers |
| RiskEngine.CalculateRiskProfile | server/src/services/riskEngine.js:21-158 | the result echoes the six answers, carries their bounded score, the tier for that score, that tier's allocation summing to 100, and the description built from that tier, the horizon answer and the emergency-fund answer |
| RecommendRoutes.ComputeMomentum | server/src/routes/recommendRoutes.js:9-30 | bullish exactly when both changes are numbers with one-month at least 8 and one-week at least 0; bearish exactly when one-month is at most -8 and one-week at most 0; neutral when either is missing |
| RecommendRoutes.SeedMomentum | server/src/seed/seedSampleStocks.js:25-74 | the seed documents' changes classify as their comments say |
| RecommendRoutes.WithComputedMomentum | server/src/routes/recommendRoutes.js:78-81 | the same documents in the same order, each differing at most in momentum, which is recomputed from its changes |
| RecommendRoutes.WithComputedMomentumIdempotent | server/src/routes/recommendRoutes.js:78-81 | recomputing momentum a second time changes nothing |
| RecommendRoutes.Recommend | server/src/routes/recommendRoutes.js:35-93 | 400 exactly when the body is missing or risk tolerance or drawdown answer is falsy; 500 exactly when the store throws; otherwise the risk result, the explanation of that result's tier and the store's documents with recomputed momentum |
| RecommendRoutes.EmptySelectionSucceeds | server/src/routes/recommendRoutes.js:75-88 | an empty store answer is a successful response with no stocks |
| RecommendRoutes.MatchesIgnoresMomentum | server/src/routes/recommendRoutes.js:48-72 | no tier query depends on a document's momentum |
| RecommendRoutes.ComputedMomentumKeepsMatches | server/src/routes/recommendRoutes.js:75-81 | recomputing momentum keeps every document inside the query it matched |
| RecommendRoutes.RecommendedStocksMatchTier | server/src/routes/recommendRoutes.js:48-81 | with a faithful store, at most six stocks are recommended and each matches the tier's query |
| AiAdviceRoutes.BuildStockQueryForRisk | server/src/routes/aiAdviceRoutes.js:20-49 | each profile's sort keys; any unnamed profile sorts as Moderate; every sort ends with P/E ascending |
| AiAdviceRoutes.ConservativeFilter | server/src/routes/aiAdviceRoutes.js:24-29 | a document is a Conservative candidate exactly when it is in the low bucket with beta at most 1.05 or missing and debt/equity at most 1.0 or missing |
| AiAdviceRoutes.AggressiveFilter | server/src/routes/aiAdviceRoutes.js:34-35 | an Aggressive candidate is exactly a medium- or high-bucket document |
| AiAdviceRoutes.ModerateFilter | server/src/routes/aiAdviceRoutes.js:40-42 | any other profile string selects exactly the low- and medium-bucket documents |
| AiAdviceRoutes.ConservativeAggressiveDisjoint | server/src/routes/aiAdviceRoutes.js:24-35 | no document is a candidate for both extreme profiles |
| AiAdviceRoutes.ConservativeWithinModerate | server/src/routes/aiAdviceRoutes.js:24-42 | every Conservative candidate is a Moderate candidate |
| AiAdviceRoutes.AggressiveModerateOverlap | server/src/routes/aiAdviceRoutes.js:34-42 | the Aggressive and Moderate candidates overlap exactly in the medium bucket |
| AiAdviceRoutes.ConservativeBetaExamples | server/src/routes/aiAdviceRoutes.js:27 | a beta above 1.05 excludes a low-bucket document, a missing beta does not |
| AiAdviceRoutes.AdviceCandidates | server/src/routes/aiAdviceRoutes.js:57-80 | rejected exactly when the body is missing; an error exactly when the store throws; "no stocks found" exactly when it answers nothing; otherwise the store's non-empty answer and the risk result |
| AiAdviceRoutes.CandidatesCapped | server/src/routes/aiAdviceRoutes.js:68-73 | with a faithful store, at most twelve candidates reach the model, each matching the tier's query |
| SelectionAgreement.CopiesAgree | server/src/routes/recommendRoutes.js:53-72 | the recommendation route's inline query and sort equal the advice route's builder for every profile |
| SelectionAgreement.FindsDifferOnlyInLimit | server/src/routes/aiAdviceRoutes.js:70-73 | the two routes' finds differ only in their limits, six and twelve |
| AiStockSync.ExchangeSuffix | server/src/services/aiStockSync.js:13-15 | "NSE" gets ".NS", "BSE" gets ".BO", every other exchange no suffix; no suffix has a lower-case letter |
| AiStockSync.ToYahooSymbol | server/src/services/aiStockSync.js:10-16 | no quote symbol exactly when the symbol or exchange is falsy; otherwise the trimmed, upper-cased symbol plus the exchange's suffix, with no lower-case letter |
| AiStockSync.LowerCaseExchangeIsBare | server/src/services/aiStockSync.js:13-15 | the exchange comparison is case-sensitive: "nse" and "bse" get no suffix, "NSE" gets ".NS" and "BSE" gets ".BO" |
| AiStockSync.ResolutionIgnoresPadding | server/src/services/aiStockSync.js:12 | any whitespace padding around the symbol does not change the quote symbol |
| AiStockSync.DeriveMomentum | server/src/services/aiStockSync.js:21-43 | neutral when neither change is a number; bullish exactly when a daily move of at least 2 or a 52-week change of at least 15 is present; bearish exactly when not bullish and a daily move of at most -2 or a 52-week change of at most -15 is present |
| AiStockSync.DeriveMomentumExamples | server/src/services/aiStockSync.js:27-40 | the bullish test wins over the bearish one, e.g. a daily +3 with a 52-week -20 is bullish |
| AiStockSync.Resolve | server/src/services/aiStockSync.js:55-57 | a readable suggestion continues exactly when its quote symbol exists and is non-empty, and then with that symbol; that needs a truthy symbol and exchange; an unreadable element never resolves |
| AiStockSync.StoreKey | server/src/services/aiStockSync.js:76 | the key is the raw symbol with each character upper-cased in place: same length, no lower-case letter, no trimming and no suffix |
| AiStockSync.BuildUpdate | server/src/services/aiStockSync.js:75-90 | the update keys on the upper-cased symbol, takes price and daily change from the quote, stores the 52-week change as one-month change, clears the weekly change and derives momentum |
| AiStockSync.CarriedRecordsAgree | server/src/services/aiStockSync.js:92-96 | two documents that carry the same update and agree outside it are equal |
| AiStockSync.ApplyUpdate | server/src/services/aiStockSync.js:92-96 | a merge writes exactly the update's schema fields and keeps the rest |
| AiStockSync.Upsert | server/src/services/aiStockSync.js:92-96 | the upsert adds at most the update's key, leaves other documents alone, merges into the existing or a fresh document, and keeps every document under its own symbol |
| AiStockSync.UpsertSkipsValidation | server/src/services/aiStockSync.js:92-96 | the upsert runs no schema validator: an update without a name or with a risk bucket outside the enum is stored, leaving a document the schema would reject |
| AiStockSync.UpsertKeepsMergeResult | server/src/services/aiStockSync.js:92-96 | merging an update into a key gives the same document whether or not another upsert came first, since no upsert changes the fields a merge keeps |
| AiStockSync.Kept | server/src/services/aiStockSync.js:54-68 | the suggestions that reach the store are at most the input and are readable suggestions |
| AiStockSync.SyncStep | server/src/services/aiStockSync.js:54-102 | one element throws exactly when it cannot be read or its store write fails; it is skipped exactly when it is readable but does not resolve or fetch; otherwise it upserts and yields the stored document with its role and rationale |
| AiStockSync.MissingFieldIsSkipped | server/src/services/aiStockSync.js:11 | an element without a truthy symbol or exchange is skipped, whatever the provider and the store do |
| AiStockSync.SyncAIStocks | server/src/services/aiStockSync.js:51-106 | a completed run yields exactly one document per kept suggestion |
| AiStockSync.SyncedDocuments | server/src/services/aiStockSync.js:51-106 | the i-th document of a completed run is the i-th kept suggestion's update merged into the document stored under its key (or a fresh default one), with that suggestion's role and rationale |
| AiStockSync.RebaseEnriched | server/src/services/aiStockSync.js:92-96 | documents described against the store after an upsert are the same documents described against the store before it |
| Sequences.Positions | server/src/services/aiStockSync.js:54 | the positions list every element the predicate accepts, once each, in increasing order, and no other |
| SyncLaws.KeptAppend | server/src/services/aiStockSync.js:54-68 | keeping the suggestions of two lists one after the other is keeping them in each list and concatenating |
| SyncLaws.KeptAtWrittenPositions | server/src/services/aiStockSync.js:54-68 | the kept suggestions are, one for one, the suggestions at the written positions |
| SyncLaws.KeptIsOrderedSubsequence | server/src/services/aiStockSync.js:54-102 | the kept suggestions are, in input order, exactly the suggestions at the written positions, each written position once, so a suggestion given twice comes back twice (the quote provider answering alike for one symbol within a run); nothing written is missed |
| SyncLaws.KeptAreWritten | server/src/services/aiStockSync.js:54-68 | every kept suggestion resolves and its quote arrives |
| SyncLaws.HasMalformedFirstOrRest | server/src/services/aiStockSync.js:54-55 | an unreadable element is the first one or one of the rest |
| SyncLaws.AbortedIffStoreFailure | server/src/services/aiStockSync.js:54-102 | a run aborts exactly when some element cannot be read or the store fails on the key of some written suggestion |
| SyncLaws.WritesOnlyStep | server/src/services/aiStockSync.js:92-96 | one upsert in front of a run that writes a set of keys gives a run that writes that set and the upsert's key |
| SyncLaws.SyncFrame | server/src/services/aiStockSync.js:51-106 | after a completed run the keys are the old keys plus the written ones; unwritten documents are unchanged; each written one sits under its own key with no weekly change and the unsynced fields it had before, or the defaults |
| SyncLaws.SyncKeepsKeys | server/src/services/aiStockSync.js:92-96 | a run keeps every document under its own symbol |
| SyncLaws.SyncedRecordsRecommendNeutral | server/src/services/aiStockSync.js:83 | a synced document has no weekly change, so the recommendation route labels it neutral |
| SyncLaws.SkippedSuggestionIsInvisible | server/src/services/aiStockSync.js:57-68 | a suggestion that does not resolve or fetch changes nothing: the run is as if it were absent |
| SyncLaws.AcceptedTouchedKeys | server/src/services/aiStockSync.js:92-96 | a store that accepts the key of every written suggestion accepts every key the run writes |
| SyncLaws.KeptAllWritten | server/src/services/aiStockSync.js:54-68 | a list whose every suggestion is written is kept whole |
| SyncLaws.CompletedRun | server/src/services/aiStockSync.js:54-106 | with readable elements and a store accepting every written key, the run completes with one document per kept suggestion, each with that suggestion's role |
| SyncLaws.AllWrittenRun | server/src/services/aiStockSync.js:54-102 | when every suggestion is written and stored, the run completes with one document per suggestion, in input order |
| SyncLaws.WithoutOneLands | server/src/services/aiStockSync.js:54 | leaving one element out keeps the others in order, each still written and stored |
| SyncLaws.FetchFailureIsIsolated | server/src/services/aiStockSync.js:60-68 | one failing fetch among otherwise stored suggestions costs only its own document: the others come back, in input order |
| SyncLaws.IndistinguishableWithoutWrites | server/src/services/aiStockSync.js:92-96 | stores that agree on every key nothing writes are equal |
| SyncLaws.UpsertKeepsIndistinguishable | server/src/services/aiStockSync.js:92-96 | upserting one update into two stores that differ only in fields it overwrites gives the same document and leaves them differing only there |
| SyncLaws.StepSeesOnlyUnsyncedFields | server/src/services/aiStockSync.js:75-102 | one step gives the same outcome on stores that differ only in fields it overwrites |
| SyncLaws.SyncSeesOnlyUnsyncedFields | server/src/services/aiStockSync.js:51-106 | a run gives the same outcome on stores that differ only in fields it overwrites |
| SyncLaws.WritesOnlyIndistinguishable | server/src/services/aiStockSync.js:92-96 | a store and the store a run leaves agree off the keys the run writes, and on those keys in every field it does not write |
| SyncLaws.SyncClockIrrelevant | server/src/services/aiStockSync.js:92-96 | a run whose written keys are all stored already gives the same outcome at every clock reading |
| SyncLaws.RerunSameClock | server/src/services/aiStockSync.js:92-96 | repeating a completed run on its own result at the same clock reading gives the same outcome |
| SyncLaws.SyncIdempotent | server/src/services/aiStockSync.js:92-96 | repeating a completed run on its own result, with the same quotes and any clock reading, gives exactly the same outcome |
| MarketData.Pct | server/src/services/marketData.js:15-16 | the change is 0 against a zero baseline and otherwise the percentage change; against a positive baseline its sign is the sign of the move |
| MarketData.BaselineIndex | server/src/services/marketData.js:11-13 | the baseline is the close the given number of days back, or the first close when the series is shorter |
| MarketData.ChangesFromSeries | server/src/services/marketData.js:6-24 | no fields exactly for a missing or short series; otherwise the last close and the percentage changes against the previous, fifth-previous and 22nd-previous closes |
| MarketData.HelperChangesFromSeries | server/src/services/marketDataHelpers.js:3-28 | all four fields null for a missing or short series; otherwise the last close as price |
| MarketData.VariantsAgree | server/src/services/marketDataHelpers.js:3-28 | the two copies give the same changes on every series of two or more closes and differ only in how they report "nothing" |
| MarketData.TwoCloseSeries | server/src/services/marketData.js:10-13 | with two closes the one-day, one-week and one-month changes coincide |
| MarketData.FlatSeriesHasNoChange | server/src/services/marketData.js:6-24 | a flat series gives its price and three zero changes |
| MarketData.ChangeSignFollowsPrice | server/src/services/marketData.js:18-23 | each change against a positive baseline has the sign of the price move |
| MarketData.ApplyChanges | server/src/services/marketData.js:32 | a refresh write touches only price, the three changes and the time stamp, and always stamps the time |
| MarketData.UpdateStockMomentum | server/src/services/marketData.js:27-38 | the symbol is logged as failed exactly when its fetch or write fails, and then nothing changes; no document is created; only that symbol's document changes, only in refresh fields; on success it gets the time stamp and, for a series of two or more closes, the computed price and three changes |
| MarketData.StepReadsOwnDocument | server/src/services/marketData.js:27-38 | one symbol's refresh reads only that symbol's own document |
| MarketData.UpdateEach | server/src/services/marketData.js:27-47 | the loop keeps the key set, logs one entry per symbol in order, failed exactly when that symbol's history fetch or write fails, and leaves unlisted documents alone |
| MarketData.EachSymbolIndependent | server/src/services/marketData.js:45-47 | each symbol ends up as its own refresh from the initial store leaves it, whatever happens to the others |
| MarketData.ListingLogged | server/src/services/marketData.js:42-47 | a log that follows the listing names every stored symbol exactly once |
| MarketData.UpdateAllStocksMomentum | server/src/services/marketData.js:27-50 | the refresh keeps the key set and logs every stored symbol exactly once, in listing order, each failed exactly when its history fetch or write fails |
| MarketData.RefreshWritesDeliveredPrices | server/src/services/marketData.js:6-50 | a symbol with a delivered history of two or more closes and a successful write gets the latest close as price, the one-day, one-week and one-month changes against the previous, fifth-previous and 22nd-previous close (or the first), the run's time stamp, and nothing else changes |
| MarketData.ShortSeriesOnlyStampsTime | server/src/services/marketData.js:7 | a history with fewer than two closes changes only the time stamp |
| MarketData.FailingProviderChangesNothing | server/src/services/marketData.js:29-37 | when every history fetch fails, the loop changes nothing and logs every symbol as failed |
| MarketData.UpdateAllAsWritten | server/src/services/marketData.js:3 | as the source binds the history function, a refresh changes nothing and every symbol fails |

## Left out

- The language-model call of the advice route, the prompt and the parsing of its answer are not modelled; the route is modelled up to the point where it calls the model.
- The other routes and files are not part of this model: the stock-picks route (which only feeds the sync), the stock listing route, the server bootstrap, the database connection and the browser client.
- The HTTP transport, JSON encoding and logging are left out. Responses become datatypes, and log lines become `LogEntry` values.
- The quote and history clients are parameters. Their HTTP requests and field mappings are not part of this model.
- The quote provider is a function of the quote symbol, so within one sync run a symbol that appears twice gets the same reply both times. The source makes one `fetchQuoteForSymbol` call per element, and two calls for one symbol may differ (one failing, one succeeding); that case is not modelled, and `SyncLaws.KeptIsOrderedSubsequence`'s "a suggestion given twice comes back twice" rests on it. The history provider is likewise a function of the symbol, which matters less because a listing names each symbol once.
- Numbers are exact reals. Floating-point rounding, `NaN`, infinities and `toFixed` formatting are left out.
- `null` and a missing field are both `None`. So a suggestion field that is `undefined` is modelled as writing `null`, although the store may drop an `undefined` entry of a `$set` and keep the old value. A close price of `null` inside a history is not modelled.
- The store's sort is not executed. `IsFindResult` states what a faithful store returns (stored documents, all matching, at most the limit), but not its order.
- `createdAt`/`updatedAt` timestamps, and the schema's validators at insert time, are left out.
- `priceToBook` and `marketCap` are not stored, because they are not schema paths; the update document keeps them.
- Concurrent requests and concurrent sync or refresh runs are not modelled. Runs are sequential folds.
- A failure of the listing `find` at the start of a refresh rejects the refresh promise. This is not modelled: the listing is an input.
- Text.ToUpper: covers ASCII letters only, because JavaScript's full Unicode case mapping is not modelled.
- Text.Trim: uses the whitespace set of the JavaScript `trim` specification; line terminators are included in it.
- MarketData.HelperChangesFromSeries: its own contract states only the short-series and price cases; the change fields are tied to the other variant by `VariantsAgree`.
- RiskEngine.Describe: its own contract states the opening and closing sentences; the full layout, with the horizon phrase in the middle, is stated by `RiskEngine.DescriptionLayout`, so that callers of the risk assessment do not carry the position facts.
- AiStockSync.Kept: does not itself state the order or that each kept suggestion is written; `SyncLaws.KeptIsOrderedSubsequence` states the order and `SyncLaws.KeptAreWritten` the latter, to keep the recursive function cheap to verify.
- AiStockSync.SyncAIStocks: its own contract states the number of documents; which document each one is is stated by `AiStockSync.SyncedDocuments`.
- An element of the suggestion list is either unreadable or a suggestion with optional string fields. Unreadable means `null`/`undefined`, whose `symbol` lookup throws, or an element whose symbol is truthy but not a string while its exchange is truthy, so that `symbol.trim()` in `toYahooSymbol` throws; either aborts the whole run. Any other element, such as a number, a string, or a non-string symbol with a falsy exchange, resolves to no quote symbol and is skipped, which a suggestion with missing fields models. Other type errors inside a suggestion, such as a non-string truthy exchange or a name the store's cast rejects, are not modelled.
- QueryModel.AtomMatches: `Absent(f)` stands for `$exists: false` and also matches a field stored as `null`, which `$exists: false` would not. Nothing in this model writes a `null` beta or debt/equity, the only fields the queries test this way, so the difference is not observable here.
- Clock readings are one integer per run (`insertedAt`, `now`), not one reading per document.

## Findings

| source | as written | input that shows it | evidently intended | confidence | as-written member | corrected member |
|---|---|---|---|---|---|---|
| server/src/services/marketData.js:3 | the refresh imports `fetchHistory1Month` from the quote client, which exports only `fetchQuoteForSymbol` (server/src/services/yahooClient.js:58-60). The name is therefore `undefined`, and every call throws inside the per-symbol `try` | any store holding one or more symbols: every symbol is logged as failed and no document changes | fetch the one-month daily history and write the latest close and the three changes | high; not executed | MarketData.UpdateAllAsWritten | MarketData.RefreshWritesDeliveredPrices |

=== FILE: ai_advice_routes.dfy ===
/**
 * POST /api/ai-advice up to the point where the language model is called:
 * score the form, build the tier's query with `BuildStockQueryForRisk`, ask
 * the store for at most twelve candidates and refuse an empty answer.
 */
module AiAdviceRoutes {
  import opened Wrappers
  import opened StockModel
  import opened QueryModel
  import opened RiskEngine

  /** The query builder; any profile string other than the two named ones is treated as Moderate. */
  function BuildStockQueryForRisk(riskProfile: string): (sel: Selection)
    ensures riskProfile == "Conservative" ==>
              sel.sort == [SortKey(DividendYield, Descending), SortKey(PeRatio, Ascending)]
    ensures riskProfile == "Aggressive" ==>
              sel.sort == [SortKey(ProfitMargin, Descending), SortKey(PeRatio, Ascending)]
    ensures riskProfile != "Conservative" && riskProfile != "Aggressive" ==>
              sel.sort == [SortKey(PeRatio, Ascending)]
    ensures sel.sort[|sel.sort| - 1] == SortKey(PeRatio, Ascending)
  {
    if riskProfile == "Conservative" then
      Selection(Query(BucketIs("low"), [[Lte(Beta, 1.05), Absent(Beta)], [Lte(DebtToEquity, 1.0), Absent(DebtToEquity)]]),
                [SortKey(DividendYield, Descending), SortKey(PeRatio, Ascending)])
    else if riskProfile == "Aggressive" then
      Selection(Query(BucketIn(["medium", "high"]), []),
                [SortKey(ProfitMargin, Descending), SortKey(PeRatio, Ascending)])
    else
      Selection(Query(BucketIn(["low", "medium"]), []), [SortKey(PeRatio, Ascending)])
  }

  predicate AtMostOrMissing(x: Option<real>, bound: real) {
    x.None? || x.value <= bound
  }

  /** The Conservative query: low bucket, beta at most 1.05 or missing, debt/equity at most 1.0 or missing. */
  lemma ConservativeFilter(r: StockRecord)
    ensures Matches(BuildStockQueryForRisk("Conservative").query, r) <==>
              && r.riskBucket == Some("low")
              && AtMostOrMissing(r.beta, 1.05)
              && AtMostOrMissing(r.debtToEquity, 1.0)
  {
    var q := BuildStockQueryForRisk("Conservative").query;
    assert q.allOf[0] == [Lte(Beta, 1.05), Absent(Beta)];
    assert q.allOf[1] == [Lte(DebtToEquity, 1.0), Absent(DebtToEquity)];
    if AtMostOrMissing(r.beta, 1.05) {
      if r.beta.None? { assert AtomMatches(q.allOf[0][1], r); } else { assert AtomMatches(q.allOf[0][0], r); }
    }
    if AtMostOrMissing(r.debtToEquity, 1.0) {
      if r.debtToEquity.None? { assert AtomMatches(q.allOf[1][1], r); } else { assert AtomMatches(q.allOf[1][0], r); }
    }
    if Matches(q, r) {
      assert AnyMatches(q.allOf[0], r) && AnyMatches(q.allOf[1], r);
    }
  }

  /** The Aggressive query: medium or high bucket, nothing else. */
  lemma AggressiveFilter(r: StockRecord)
    ensures Matches(BuildStockQueryForRisk("Aggressive").query, r) <==>
              r.riskBucket == Some("medium") || r.riskBucket == Some("high")
  {
  }

  /** Every other profile string, Moderate included: low or medium bucket. */
  lemma ModerateFilter(profile: string, r: StockRecord)
    requires profile != "Conservative" && profile != "Aggressive"
    ensures Matches(BuildStockQueryForRisk(profile).query, r) <==>
              r.riskBucket == Some("low") || r.riskBucket == Some("medium")
  {
  }

  /** No document is a candidate for both the Conservative and the Aggressive profile. */
  lemma ConservativeAggressiveDisjoint(r: StockRecord)
    ensures !(Matches(BuildStockQueryForRisk("Conservative").query, r) &&
              Matches(BuildStockQueryForRisk("Aggressive").query, r))
  {
    ConservativeFilter(r);
  }

  /** Every Conservative candidate is a Moderate candidate. */
  lemma ConservativeWithinModerate(r: StockRecord)
    requires Matches(BuildStockQueryForRisk("Conservative").query, r)
    ensures Matches(BuildStockQueryForRisk("Moderate").query, r)
  {
    ConservativeFilter(r);
  }

  /** The Aggressive and Moderate candidates overlap exactly in the medium bucket. */
  lemma AggressiveModerateOverlap(r: StockRecord)
    ensures (Matches(BuildStockQueryForRisk("Aggressive").query, r) &&
             Matches(BuildStockQueryForRisk("Moderate").query, r)) <==> r.riskBucket == Some("medium")
  {
  }

  /** A beta above 1.05 excludes a document from the Conservative query; a missing beta does not. */
  lemma ConservativeBetaExamples(r: StockRecord)
    requires r.riskBucket == Some("low") && r.debtToEquity.None?
    ensures r.beta.Some? && r.beta.value > 1.05 ==> !Matches(BuildStockQueryForRisk("Conservative").query, r)
    ensures r.beta.None? ==> Matches(BuildStockQueryForRisk("Conservative").query, r)
  {
    ConservativeFilter(r);
  }

  const AdviceLimit: nat := 12

  function AdviceFind(p: RiskProfile): StockFind {
    StockFind(BuildStockQueryForRisk(ProfileName(p)), AdviceLimit)
  }

  datatype AdviceOutcome =
    | MissingBody
    | AdvisorFailed
    | NoStocksFound
    | Candidates(riskResult: RiskResult, stocks: seq<StockRecord>)

  /**
   * The handler up to the language-model call, with the store's `find` as a
   * parameter (None when it throws). Only a missing body is rejected; an
   * empty candidate list is an error response, not an empty success.
   */
  function AdviceCandidates(body: Option<Answers>, find: StockFind -> Option<seq<StockRecord>>): (r: AdviceOutcome)
    ensures r.MissingBody? <==> body.None?
    ensures body.Some? ==>
              var f := AdviceFind(CalculateRiskProfile(body.value).riskProfile);
              && (r.AdvisorFailed? <==> find(f).None?)
              && (r.NoStocksFound? <==> find(f).Some? && |find(f).value| == 0)
              && (r.Candidates? ==> r.stocks == find(f).value && |r.stocks| > 0)
    ensures r.Candidates? ==> r.riskResult == CalculateRiskProfile(body.value)
  {
    if body.None? then MissingBody
    else
      var result := CalculateRiskProfile(body.value);
      match find(AdviceFind(result.riskProfile))
      case None => AdvisorFailed
      case Some(stocks) =>
        if |stocks| == 0 then NoStocksFound else Candidates(result, stocks)
  }

  /** When the store answers faithfully, at most twelve candidates reach the model, all matching the tier's query. */
  lemma CandidatesCapped(st: Store, body: Option<Answers>, find: StockFind -> Option<seq<StockRecord>>)
    requires AdviceCandidates(body, find).Candidates?
    requires var f := AdviceFind(CalculateRiskProfile(body.value).riskProfile);
             find(f).Some? && IsFindResult(st, f, find(f).value)
    ensures |AdviceCandidates(body, find).stocks| <= AdviceLimit
    ensures forall i :: 0 <= i < |AdviceCandidates(body, find).stocks| ==>
              Matches(BuildStockQueryForRisk(ProfileName(CalculateRiskProfile(body.value).riskProfile)).query,
                      AdviceCandidates(body, find).stocks[i])
  {
  }
}

=== FILE: ai_stock_sync.dfy ===
/**
 * Reconciliation of language-model stock suggestions with the store: each
 * suggestion is resolved to a quote-provider symbol, quoted, classified and
 * merged into the store under its upper-cased symbol, one after another.
 * The quote provider is a parameter (None when the fetch throws) and so is
 * the store's failure behaviour (`storeFails`, by key).
 */
module AiStockSync {
  import opened Wrappers
  import opened Text
  import opened StockModel

  // ----- Symbol resolution -----

  /** The trimmed, upper-cased symbol. */
  function BaseSymbol(symbol: string): string {
    ToUpper(Trim(symbol))
  }

  /** The provider's suffix for an exchange; only the exact strings "NSE" and "BSE" have one. */
  function ExchangeSuffix(exchange: string): (suffix: string)
    ensures suffix != "" <==> exchange == "NSE" || exchange == "BSE"
    ensures exchange == "NSE" ==> suffix == ".NS"
    ensures exchange == "BSE" ==> suffix == ".BO"
    ensures forall i :: 0 <= i < |suffix| ==> !IsAsciiLower(suffix[i])
  {
    if exchange == "NSE" then ".NS" else if exchange == "BSE" then ".BO" else ""
  }

  /**
   * Resolves a suggestion to the provider's symbol: nothing when the symbol
   * or the exchange is missing or empty, otherwise the base symbol followed
   * by the exchange's suffix.
   */
  function ToYahooSymbol(symbol: Option<string>, exchange: Option<string>): (r: Option<string>)
    ensures r.None? <==> !Truthy(symbol) || !Truthy(exchange)
    ensures r.Some? ==> r.value == BaseSymbol(symbol.value) + ExchangeSuffix(exchange.value)
    ensures r.Some? ==> forall i :: 0 <= i < |r.value| ==> !IsAsciiLower(r.value[i])
  {
    if !Truthy(symbol) || !Truthy(exchange) then None
    else
      var base := BaseSymbol(symbol.value);
      if exchange.value == "NSE" then Some(base + ".NS")
      else if exchange.value == "BSE" then Some(base + ".BO")
      else Some(base)
  }

  /** Exchange names are case-sensitive: a lower-case "nse" or "bse" gets no suffix. */
  lemma LowerCaseExchangeIsBare(symbol: string)
    requires symbol != ""
    ensures ToYahooSymbol(Some(symbol), Some("nse")) == Some(BaseSymbol(symbol))
    ensures ToYahooSymbol(Some(symbol), Some("NSE")) == Some(BaseSymbol(symbol) + ".NS")
    ensures ToYahooSymbol(Some(symbol), Some("bse")) == Some(BaseSymbol(symbol))
    ensures ToYahooSymbol(Some(symbol), Some("BSE")) == Some(BaseSymbol(symbol) + ".BO")
  {
  }

  /** Any surrounding white space leaves the resolved symbol as it is. */
  lemma ResolutionIgnoresPadding(before: string, symbol: string, after: string, exchange: string)
    requires AllSpace(before) && AllSpace(after)
    requires symbol != "" && Trim(symbol) == symbol && exchange != ""
    ensures ToYahooSymbol(Some(before + symbol + after), Some(exchange)) == ToYahooSymbol(Some(symbol), Some(exchange))
  {
    TrimDropsPadding(before, symbol, after);
  }

  // ----- Momentum from a live quote -----

  predicate NumberAtLeast(x: Option<real>, bound: real) {
    x.Some? && x.value >= bound
  }

  predicate NumberAtMost(x: Option<real>, bound: real) {
    x.Some? && x.value <= bound
  }

  /**
   * The quote-based momentum heuristic: either signal alone suffices, a
   * missing signal is ignored, and the bullish test comes first.
   */
  function DeriveMomentum(change1D: Option<real>, change52W: Option<real>): (m: Momentum)
    ensures change1D.None? && change52W.None? ==> m == Neutral
    ensures m == Bullish <==> NumberAtLeast(change1D, 2.0) || NumberAtLeast(change52W, 15.0)
    ensures m == Bearish <==>
              && !(NumberAtLeast(change1D, 2.0) || NumberAtLeast(change52W, 15.0))
              && (NumberAtMost(change1D, -2.0) || NumberAtMost(change52W, -15.0))
  {
    if change1D.None? && change52W.None? then Neutral
    else if (change1D.Some? && change1D.value >= 2.0) || (change52W.Some? && change52W.value >= 15.0) then Bullish
    else if (change1D.Some? && change1D.value <= -2.0) || (change52W.Some? && change52W.value <= -15.0) then Bearish
    else Neutral
  }

  /** Worked cases, including one where a bullish and a bearish signal meet. */
  lemma DeriveMomentumExamples()
    ensures DeriveMomentum(Some(3.0), Some(-20.0)) == Bullish
    ensures DeriveMomentum(Some(2.0), Some(0.0)) == Bullish
    ensures DeriveMomentum(Some(-3.0), Some(0.0)) == Bearish
    ensures DeriveMomentum(Some(0.0), Some(16.0)) == Bullish
    ensures DeriveMomentum(Some(0.0), Some(0.0)) == Neutral
    ensures DeriveMomentum(None, Some(-15.0)) == Bearish
  {
  }

  // ----- Suggestions, quotes and updates -----

  /**
   * One element of the language model's list. `Malformed` is an element the
   * loop cannot even read: `null` or `undefined`, whose `symbol` lookup
   * throws, or one whose symbol is truthy but not a string while its
   * exchange is truthy, so that `symbol.trim()` throws. Either throw is
   * outside the per-item `try`, so the whole run rejects. Any other element
   * (a number, a string, a non-string symbol with a falsy exchange) has no
   * usable symbol or exchange and is a `Suggestion` with missing fields,
   * which resolves to nothing and is skipped.
   */
  datatype Suggestion = Suggestion(
    symbol: Option<string>,
    exchange: Option<string>,
    name: Option<string>,
    roughRiskBucket: Option<string>,
    role: Option<string>,
    rationale: Option<string>)
    | Malformed

  /** The quote fields the provider client returns. */
  datatype Quote = Quote(
    currentPrice: Option<real>,
    change1D: Option<real>,
    change52W: Option<real>,
    forwardPE: Option<real>,
    priceToBook: Option<real>,
    marketCap: Option<real>)

  /** The quote provider: None when the fetch throws (network error, no quote in the reply). */
  type QuoteProvider = string -> Option<Quote>

  /**
   * The `$set` document. `priceToBook` and `marketCap` are not schema paths,
   * so the store drops them when it applies the update.
   */
  datatype SyncUpdate = SyncUpdate(
    symbol: string,
    name: Option<string>,
    exchange: string,
    riskBucket: Option<string>,
    currentPrice: Option<real>,
    change1D: Option<real>,
    change1W: Option<real>,
    change1M: Option<real>,
    momentum: Momentum,
    peRatio: Option<real>,
    priceToBook: Option<real>,
    marketCap: Option<real>)

  /** A returned document with the suggestion's annotations, which are never stored. */
  datatype Enriched = Enriched(record: StockRecord, aiRole: Option<string>, aiRationale: Option<string>)

  /** A completed run, or one cut short by a store failure (the writes before it stay). */
  datatype SyncOutcome = Completed(enriched: seq<Enriched>, store: Store) | Aborted(store: Store)

  /** The provider symbol the loop continues with: a falsy result (none, or "") skips the suggestion. */
  function Resolve(s: Suggestion): (r: Option<string>)
    ensures r.Some? <==>
              s.Suggestion? && ToYahooSymbol(s.symbol, s.exchange).Some? && ToYahooSymbol(s.symbol, s.exchange).value != ""
    ensures r.Some? ==> r.value == ToYahooSymbol(s.symbol, s.exchange).value
    ensures r.Some? ==> Truthy(s.symbol) && Truthy(s.exchange) && r.value != ""
  {
    if s.Malformed? then None
    else
      match ToYahooSymbol(s.symbol, s.exchange)
      case None => None
      case Some(y) => if y == "" then None else Some(y)
  }

  function Fetched(s: Suggestion, fetch: QuoteProvider): Option<Quote> {
    match Resolve(s)
    case None => None
    case Some(y) => fetch(y)
  }

  /** The suggestion resolves and its quote arrives, so it reaches the store. */
  predicate Written(s: Suggestion, fetch: QuoteProvider) {
    Fetched(s, fetch).Some?
  }

  /** The store key: the suggestion's raw symbol upper-cased, neither trimmed nor suffixed. */
  function StoreKey(s: Suggestion): (k: string)
    requires s.Suggestion? && s.symbol.Some?
    ensures |k| == |s.symbol.value|
    ensures forall i :: 0 <= i < |k| ==> k[i] == UpperChar(s.symbol.value[i])
    ensures forall i :: 0 <= i < |k| ==> !IsAsciiLower(k[i])
  {
    ToUpper(s.symbol.value)
  }

  /**
   * The update for a resolved suggestion and its quote. The weekly change is
   * cleared, the one-month slot receives the 52-week change, and the
   * forward P/E becomes the P/E.
   */
  function BuildUpdate(s: Suggestion, q: Quote): (u: SyncUpdate)
    requires s.Suggestion? && s.symbol.Some? && s.exchange.Some?
    ensures u.symbol == StoreKey(s)
    ensures u.change1W.None?
    ensures u.change1M == q.change52W && u.change1D == q.change1D && u.currentPrice == q.currentPrice
    ensures u.peRatio == q.forwardPE && u.priceToBook == q.priceToBook && u.marketCap == q.marketCap
    ensures u.momentum == DeriveMomentum(q.change1D, q.change52W)
    ensures u.riskBucket == s.roughRiskBucket && u.name == s.name && u.exchange == s.exchange.value
  {
    SyncUpdate(ToUpper(s.symbol.value), s.name, s.exchange.value, s.roughRiskBucket, q.currentPrice,
               q.change1D, None, q.change52W, DeriveMomentum(q.change1D, q.change52W),
               q.forwardPE, q.priceToBook, q.marketCap)
  }

  // ----- Merge-upsert -----

  /** `r` holds every stored field of `u`. */
  predicate Carries(r: StockRecord, u: SyncUpdate) {
    && r.symbol == u.symbol && r.name == u.name && r.exchange == u.exchange
    && r.riskBucket == u.riskBucket && r.currentPrice == u.currentPrice
    && r.change1D == u.change1D && r.change1W == u.change1W && r.change1M == u.change1M
    && r.momentum == u.momentum && r.peRatio == u.peRatio
  }

  /** The fields an update never writes agree. */
  predicate SameUnsyncedFields(a: StockRecord, b: StockRecord) {
    && a.sector == b.sector && a.beta == b.beta && a.dividendYield == b.dividendYield
    && a.debtToEquity == b.debtToEquity && a.profitMargin == b.profitMargin
    && a.freeCashFlow == b.freeCashFlow && a.lastUpdated == b.lastUpdated
  }

  /** A document is fixed by the update it carries and the fields the update leaves alone. */
  lemma CarriedRecordsAgree(a: StockRecord, b: StockRecord, u: SyncUpdate)
    requires Carries(a, u) && Carries(b, u) && SameUnsyncedFields(a, b)
    ensures a == b
  {
  }

  /** `$set`: overwrite the update's schema fields, keep the rest. */
  function ApplyUpdate(r: StockRecord, u: SyncUpdate): (r': StockRecord)
    ensures Carries(r', u)
    ensures SameUnsyncedFields(r', r)
  {
    r.(symbol := u.symbol, name := u.name, exchange := u.exchange, riskBucket := u.riskBucket,
       currentPrice := u.currentPrice, change1D := u.change1D, change1W := u.change1W,
       change1M := u.change1M, momentum := u.momentum, peRatio := u.peRatio)
  }

  /** The document an upsert starts from: the stored one, or a fresh one with the schema defaults. */
  function Base(st: Store, k: string, insertedAt: int): StockRecord {
    if k in st then st[k] else NewRecord(k, insertedAt)
  }

  /** Insert when the key is absent, otherwise merge; every other document is untouched. */
  function Upsert(st: Store, u: SyncUpdate, insertedAt: int): (st': Store)
    ensures st'.Keys == st.Keys + {u.symbol}
    ensures forall k :: k in st && k != u.symbol ==> st'[k] == st[k]
    ensures Carries(st'[u.symbol], u)
    ensures SameUnsyncedFields(st'[u.symbol], Base(st, u.symbol, insertedAt))
    ensures KeyedBySymbol(st) ==> KeyedBySymbol(st')
  {
    st[u.symbol := ApplyUpdate(Base(st, u.symbol, insertedAt), u)]
  }

  /**
   * The upsert runs no validator: an update without a name, or with a risk
   * bucket outside the schema's enum, is stored as it is.
   */
  lemma UpsertSkipsValidation(st: Store, u: SyncUpdate, insertedAt: int)
    requires u.name.None? || (u.riskBucket.Some? && u.riskBucket.value !in RiskBuckets)
    ensures u.symbol in Upsert(st, u, insertedAt)
    ensures !SchemaValid(Upsert(st, u, insertedAt)[u.symbol])
  {
  }

  // ----- The batch -----

  /** The suggestions that reach the store, in input order. */
  function Kept(items: seq<Suggestion>, fetch: QuoteProvider): (ks: seq<Suggestion>)
    ensures |ks| <= |items|
    ensures forall i :: 0 <= i < |ks| ==> ks[i].Suggestion?
  {
    if |items| == 0 then []
    else if Written(items[0], fetch) then [items[0]] + Kept(items[1..], fetch)
    else Kept(items[1..], fetch)
  }

  /** Returned document `e` stems from written suggestion `s`: its annotations and the fields of its update. */
  predicate EnrichedFrom(e: Enriched, s: Suggestion, fetch: QuoteProvider, st: Store, insertedAt: int) {
    && Written(s, fetch)
    && e.aiRole == s.role
    && e.aiRationale == s.rationale
    && e.record == ApplyUpdate(Base(st, StoreKey(s), insertedAt), BuildUpdate(s, Fetched(s, fetch).value))
  }

  /**
   * An upsert changes no document's unsynced fields, so merging any update
   * into a key gives the same document before and after it.
   */
  lemma UpsertKeepsMergeResult(st: Store, u0: SyncUpdate, insertedAt: int, k: string, u: SyncUpdate)
    ensures ApplyUpdate(Base(Upsert(st, u0, insertedAt), k, insertedAt), u) == ApplyUpdate(Base(st, k, insertedAt), u)
  {
    var st' := Upsert(st, u0, insertedAt);
    assert SameUnsyncedFields(Base(st', k, insertedAt), Base(st, k, insertedAt));
    CarriedRecordsAgree(ApplyUpdate(Base(st', k, insertedAt), u), ApplyUpdate(Base(st, k, insertedAt), u), u);
  }

  /** What one suggestion does to a run. */
  datatype StepOutcome = Skipped | Threw | Stored(doc: Enriched, after: Store)

  /**
   * One iteration of the loop: skip a suggestion that does not resolve or
   * whose quote fails; otherwise upsert its update (unless the store fails)
   * and return the stored document with the suggestion's annotations.
   */
  function SyncStep(s: Suggestion, fetch: QuoteProvider, storeFails: string -> bool,
                    insertedAt: int, st: Store): (o: StepOutcome)
    ensures o.Skipped? <==> s.Suggestion? && !Written(s, fetch)
    ensures o.Threw? <==> s.Malformed? || (Written(s, fetch) && storeFails(StoreKey(s)))
    ensures o.Stored? ==>
              && EnrichedFrom(o.doc, s, fetch, st, insertedAt)
              && o.after == Upsert(st, BuildUpdate(s, Fetched(s, fetch).value), insertedAt)
              && o.doc.record == o.after[StoreKey(s)]
  {
    if s.Malformed? then Threw
    else if !Written(s, fetch) then Skipped
    else
      var u := BuildUpdate(s, Fetched(s, fetch).value);
      if storeFails(u.symbol) then Threw
      else
        var st' := Upsert(st, u, insertedAt);
        Stored(Enriched(st'[u.symbol], s.role, s.rationale), st')
  }

  /**
   * An element without a usable symbol or exchange (a number, a string, an
   * object missing either field) is skipped whatever the provider and the
   * store do; it neither throws nor reaches the store.
   */
  lemma MissingFieldIsSkipped(s: Suggestion, fetch: QuoteProvider, storeFails: string -> bool,
                              insertedAt: int, st: Store)
    requires s.Suggestion? && (!Truthy(s.symbol) || !Truthy(s.exchange))
    ensures SyncStep(s, fetch, storeFails, insertedAt, st) == Skipped
  {
  }

  /**
   * `syncAIStocks`, one suggestion after another. A suggestion that does
   * not resolve or whose quote fails is skipped; a store failure ends the
   * whole run. A completed run returns one document per kept suggestion;
   * `SyncedDocuments` says which document.
   */
  function SyncAIStocks(items: seq<Suggestion>, fetch: QuoteProvider, storeFails: string -> bool,
                        insertedAt: int, st: Store): (r: SyncOutcome)
    ensures r.Completed? ==> |r.enriched| == |Kept(items, fetch)|
    decreases |items|
  {
    if |items| == 0 then Completed([], st)
    else
      match SyncStep(items[0], fetch, storeFails, insertedAt, st)
      case Skipped =>
        KeptSkips(items, fetch);
        SyncAIStocks(items[1..], fetch, storeFails, insertedAt, st)
      case Threw => Aborted(st)
      case Stored(e, st') =>
        KeptKeeps(items, fetch);
        match SyncAIStocks(items[1..], fetch, storeFails, insertedAt, st')
        case Completed(rest, final) => Completed([e] + rest, final)
        case Aborted(final) => Aborted(final)
  }

  /** A written first suggestion heads the kept list. */
  lemma KeptKeeps(items: seq<Suggestion>, fetch: QuoteProvider)
    requires |items| > 0 && Written(items[0], fetch)
    ensures Kept(items, fetch) == [items[0]] + Kept(items[1..], fetch)
  {
  }

  /** A first suggestion that is not written is not kept. */
  lemma KeptSkips(items: seq<Suggestion>, fetch: QuoteProvider)
    requires |items| > 0 && !Written(items[0], fetch)
    ensures Kept(items, fetch) == Kept(items[1..], fetch)
  {
  }

  /**
   * The i-th document of a completed run stems from the i-th kept
   * suggestion: its annotations, and the document the upsert of its
   * update leaves, merged into what the store held before the run.
   */
  lemma {:induction false} SyncedDocuments(items: seq<Suggestion>, fetch: QuoteProvider, storeFails: string -> bool,
                                           insertedAt: int, st: Store)
    ensures var r := SyncAIStocks(items, fetch, storeFails, insertedAt, st);
            r.Completed? ==>
              forall i :: 0 <= i < |r.enriched| ==> EnrichedFrom(r.enriched[i], Kept(items, fetch)[i], fetch, st, insertedAt)
    decreases |items|
  {
    if |items| > 0 {
      match SyncStep(items[0], fetch, storeFails, insertedAt, st)
      case Skipped =>
        SyncedDocuments(items[1..], fetch, storeFails, insertedAt, st);
      case Threw =>
      case Stored(e, st') =>
        SyncedDocuments(items[1..], fetch, storeFails, insertedAt, st');
        match SyncAIStocks(items[1..], fetch, storeFails, insertedAt, st')
        case Completed(rest, final) =>
          RebaseEnriched(Kept(items[1..], fetch), rest, fetch, BuildUpdate(items[0], Fetched(items[0], fetch).value),
                         insertedAt, st, st');
          KeptStep(items, fetch, e, rest, insertedAt, st);
        case Aborted(_) =>
    }
  }

  /** Documents merged into the store an upsert left are the documents merged into the store before it. */
  lemma RebaseEnriched(ks: seq<Suggestion>, rest: seq<Enriched>, fetch: QuoteProvider, u0: SyncUpdate,
                       insertedAt: int, st: Store, st': Store)
    requires st' == Upsert(st, u0, insertedAt)
    requires |rest| == |ks|
    requires forall i :: 0 <= i < |rest| ==> EnrichedFrom(rest[i], ks[i], fetch, st', insertedAt)
    ensures forall i :: 0 <= i < |rest| ==> EnrichedFrom(rest[i], ks[i], fetch, st, insertedAt)
  {
    forall i | 0 <= i < |rest|
      ensures EnrichedFrom(rest[i], ks[i], fetch, st, insertedAt)
    {
      UpsertKeepsMergeResult(st, u0, insertedAt, StoreKey(ks[i]), BuildUpdate(ks[i], Fetched(ks[i], fetch).value));
    }
  }

  /** One kept suggestion's document in front of the documents of the rest is the documents of the whole batch. */
  lemma KeptStep(items: seq<Suggestion>, fetch: QuoteProvider, e: Enriched, rest: seq<Enriched>,
                 insertedAt: int, st: Store)
    requires |items| > 0 && Written(items[0], fetch) && EnrichedFrom(e, items[0], fetch, st, insertedAt)
    requires |rest| == |Kept(items[1..], fetch)|
    requires forall i :: 0 <= i < |rest| ==> EnrichedFrom(rest[i], Kept(items[1..], fetch)[i], fetch, st, insertedAt)
    ensures |[e] + rest| == |Kept(items, fetch)|
    ensures forall i :: 0 <= i < |[e] + rest| ==> EnrichedFrom(([e] + rest)[i], Kept(items, fetch)[i], fetch, st, insertedAt)
  {
    var ks := Kept(items, fetch);
    var tail := Kept(items[1..], fetch);
    assert ks == [items[0]] + tail;
    forall i | 0 <= i < |[e] + rest|
      ensures EnrichedFrom(([e] + rest)[i], ks[i], fetch, st, insertedAt)
    {
      if i > 0 {
        assert ([e] + rest)[i] == rest[i - 1];
        assert ks[i] == tail[i - 1];
      }
    }
  }
}

=== FILE: market_data.dfy ===
/**
 * The history-driven refresh: percentage changes over one day, one week
 * (five trading days) and one month (twenty-two trading days) from a
 * series of daily closes, written into each stored document in turn. The
 * history provider and the store's failure behaviour (`writeFails`, by
 * symbol) are parameters; `now` is the opaque time of the run.
 */
module MarketData {
  import opened Wrappers
  import opened StockModel

  datatype Candle = Candle(close: real)

  /** The fields `computeChangesFromSeries` fills for a series of at least two closes. */
  datatype SeriesChanges = SeriesChanges(currentPrice: real, change1D: real, change1W: real, change1M: real)

  /** The helper variant's result, whose fields are null for a short series. */
  datatype NullableChanges = NullableChanges(
    currentPrice: Option<real>, change1D: Option<real>, change1W: Option<real>, change1M: Option<real>)

  /** `c` is the percentage change from `prev` to `now`, or 0 when there is no usable baseline. */
  predicate IsChange(c: real, now: real, prev: real) {
    && (prev == 0.0 ==> c == 0.0)
    && (prev != 0.0 ==> c * prev == (now - prev) * 100.0)
  }

  /** The zero-guarded percentage change: never a division by zero. */
  function Pct(now: real, prev: real): (r: real)
    ensures IsChange(r, now, prev)
    ensures prev > 0.0 ==> (r > 0.0 <==> now > prev) && (r < 0.0 <==> now < prev) && (r == 0.0 <==> now == prev)
  {
    if prev != 0.0 then (now - prev) / prev * 100.0 else 0.0
  }

  /** `series[n - back]`, or `series[0]` when that index falls before the start. */
  function BaselineIndex(n: nat, back: nat): (i: nat)
    requires n >= 1 && back >= 1
    ensures i < n
    ensures n >= back ==> i == n - back
    ensures n < back ==> i == 0
  {
    if n >= back then n - back else 0
  }

  function Last(s: seq<Candle>): real
    requires |s| > 0
  {
    s[|s| - 1].close
  }

  /** The `marketData.js` variant: no fields at all (`{}`) for a missing or short series. */
  function ChangesFromSeries(series: Option<seq<Candle>>): (r: Option<SeriesChanges>)
    ensures r.None? <==> series.None? || |series.value| < 2
    ensures r.Some? ==>
              var s := series.value;
              var n := |s|;
              && r.value.currentPrice == Last(s)
              && IsChange(r.value.change1D, Last(s), s[n - 2].close)
              && IsChange(r.value.change1W, Last(s), s[BaselineIndex(n, 6)].close)
              && IsChange(r.value.change1M, Last(s), s[BaselineIndex(n, 23)].close)
  {
    if series.None? || |series.value| < 2 then None
    else
      var s := series.value;
      var n := |s|;
      var last := s[n - 1].close;
      var d1 := s[n - 2].close;
      var d5 := s[BaselineIndex(n, 6)].close;
      var d22 := s[BaselineIndex(n, 23)].close;
      Some(SeriesChanges(last, Pct(last, d1), Pct(last, d5), Pct(last, d22)))
  }

  /** The `marketDataHelpers.js` variant: all four fields null for a missing or short series. */
  function HelperChangesFromSeries(series: Option<seq<Candle>>): (r: NullableChanges)
    ensures series.None? || |series.value| < 2 ==>
              r.currentPrice.None? && r.change1D.None? && r.change1W.None? && r.change1M.None?
    ensures series.Some? && |series.value| >= 2 ==>
              r.currentPrice == Some(Last(series.value))
  {
    if series.None? || |series.value| < 2 then NullableChanges(None, None, None, None)
    else
      var s := series.value;
      var n := |s|;
      var last := s[n - 1].close;
      var prev1 := s[n - 2].close;
      var prev5 := s[BaselineIndex(n, 6)].close;
      var prev22 := s[BaselineIndex(n, 23)].close;
      NullableChanges(Some(last), Some(Pct(last, prev1)), Some(Pct(last, prev5)), Some(Pct(last, prev22)))
  }

  /** The two variants agree on every series of at least two closes and differ only in how they say "nothing". */
  lemma VariantsAgree(series: Option<seq<Candle>>)
    ensures match ChangesFromSeries(series)
            case None => HelperChangesFromSeries(series) == NullableChanges(None, None, None, None)
            case Some(c) => HelperChangesFromSeries(series) ==
                              NullableChanges(Some(c.currentPrice), Some(c.change1D), Some(c.change1W), Some(c.change1M))
  {
  }

  /** With two closes every baseline is the first close, so the three changes coincide. */
  lemma TwoCloseSeries(a: real, b: real)
    ensures var c := ChangesFromSeries(Some([Candle(a), Candle(b)])).value;
            c.change1D == c.change1W == c.change1M
  {
  }

  /** A flat series shows no change at all. */
  lemma {:induction false} FlatSeriesHasNoChange(s: seq<Candle>, price: real)
    requires |s| >= 2
    requires forall i :: 0 <= i < |s| ==> s[i].close == price
    ensures var c := ChangesFromSeries(Some(s)).value;
            c.currentPrice == price && c.change1D == 0.0 && c.change1W == 0.0 && c.change1M == 0.0
  {
    var n := |s|;
    assert s[n - 1].close == s[n - 2].close == s[BaselineIndex(n, 6)].close == s[BaselineIndex(n, 23)].close == price;
  }

  /** Against a positive baseline, each change has the sign of the price move. */
  lemma ChangeSignFollowsPrice(s: seq<Candle>)
    requires |s| >= 2
    ensures var c := ChangesFromSeries(Some(s)).value;
            var n := |s|;
            && (s[n - 2].close > 0.0 ==>
                  (c.change1D > 0.0 <==> Last(s) > s[n - 2].close)
                  && (c.change1D < 0.0 <==> Last(s) < s[n - 2].close))
            && (s[BaselineIndex(n, 6)].close > 0.0 ==>
                  (c.change1W > 0.0 <==> Last(s) > s[BaselineIndex(n, 6)].close)
                  && (c.change1W < 0.0 <==> Last(s) < s[BaselineIndex(n, 6)].close))
            && (s[BaselineIndex(n, 23)].close > 0.0 ==>
                  (c.change1M > 0.0 <==> Last(s) > s[BaselineIndex(n, 23)].close)
                  && (c.change1M < 0.0 <==> Last(s) < s[BaselineIndex(n, 23)].close))
  {
  }

  // ----- Writing the changes -----

  /** What the history provider gives back: a failure (it throws), or a series that may be missing. */
  datatype HistoryReply = FetchFailed | Delivered(series: Option<seq<Candle>>)

  type HistoryProvider = string -> HistoryReply

  /** The log line of one symbol. */
  datatype LogEntry = Updated(symbol: string) | Failed(symbol: string)

  datatype StepResult = StepResult(store: Store, entry: LogEntry)

  datatype RefreshResult = RefreshResult(store: Store, log: seq<LogEntry>)

  /** `b` differs from `a` at most in the price, the three changes and the time stamp. */
  predicate OnlyRefreshFieldsDiffer(a: StockRecord, b: StockRecord) {
    b == a.(currentPrice := b.currentPrice, change1D := b.change1D, change1W := b.change1W,
            change1M := b.change1M, lastUpdated := b.lastUpdated)
  }

  /** `$set: {...update, lastUpdated}` on one document. */
  function ApplyChanges(r: StockRecord, c: Option<SeriesChanges>, now: int): (r': StockRecord)
    ensures OnlyRefreshFieldsDiffer(r, r')
    ensures r'.lastUpdated == now
    ensures c.None? ==> r' == r.(lastUpdated := now)
    ensures c.Some? ==>
              && r'.currentPrice == Some(c.value.currentPrice)
              && r'.change1D == Some(c.value.change1D)
              && r'.change1W == Some(c.value.change1W)
              && r'.change1M == Some(c.value.change1M)
  {
    match c
    case None => r.(lastUpdated := now)
    case Some(ch) =>
      r.(currentPrice := Some(ch.currentPrice), change1D := Some(ch.change1D), change1W := Some(ch.change1W),
         change1M := Some(ch.change1M), lastUpdated := now)
  }

  /**
   * `updateStockMomentum`: fetch, compute, `updateOne` without upsert.
   * Every failure is caught and logged, leaving the store as it was; an
   * unknown symbol is "updated" without any document appearing.
   */
  function UpdateStockMomentum(st: Store, symbol: string, history: HistoryProvider,
                               writeFails: string -> bool, now: int): (r: StepResult)
    ensures r.entry.symbol == symbol
    ensures r.entry.Failed? <==> history(symbol).FetchFailed? || writeFails(symbol)
    ensures r.entry.Failed? ==> r.store == st
    ensures r.store.Keys == st.Keys
    ensures forall k :: k in st && k != symbol ==> r.store[k] == st[k]
    ensures symbol in st ==> OnlyRefreshFieldsDiffer(st[symbol], r.store[symbol])
    ensures symbol in st && r.entry.Updated? ==> r.store[symbol].lastUpdated == now
    ensures symbol in st && r.entry.Updated? && ChangesFromSeries(history(symbol).series).None? ==>
              r.store[symbol] == st[symbol].(lastUpdated := now)
    ensures symbol in st && r.entry.Updated? && ChangesFromSeries(history(symbol).series).Some? ==>
              var c := ChangesFromSeries(history(symbol).series).value;
              && r.store[symbol].currentPrice == Some(c.currentPrice)
              && r.store[symbol].change1D == Some(c.change1D)
              && r.store[symbol].change1W == Some(c.change1W)
              && r.store[symbol].change1M == Some(c.change1M)
  {
    match history(symbol)
    case FetchFailed => StepResult(st, Failed(symbol))
    case Delivered(series) =>
      if writeFails(symbol) then StepResult(st, Failed(symbol))
      else
        var update := ChangesFromSeries(series);
        var st' := if symbol in st then st[symbol := ApplyChanges(st[symbol], update, now)] else st;
        StepResult(st', Updated(symbol))
  }

  /** One symbol's refresh reads only that symbol's own document. */
  lemma StepReadsOwnDocument(st1: Store, st2: Store, symbol: string, history: HistoryProvider,
                             writeFails: string -> bool, now: int)
    requires symbol in st1 && symbol in st2 && st1[symbol] == st2[symbol]
    ensures UpdateStockMomentum(st1, symbol, history, writeFails, now).store[symbol] ==
            UpdateStockMomentum(st2, symbol, history, writeFails, now).store[symbol]
  {
  }

  /** The refresh loop over a list of symbols, one at a time. */
  function UpdateEach(st: Store, symbols: seq<string>, history: HistoryProvider,
                      writeFails: string -> bool, now: int): (r: RefreshResult)
    ensures r.store.Keys == st.Keys
    ensures |r.log| == |symbols|
    ensures forall i :: 0 <= i < |symbols| ==> r.log[i].symbol == symbols[i]
    ensures forall i :: 0 <= i < |symbols| ==>
              (r.log[i].Failed? <==> history(symbols[i]).FetchFailed? || writeFails(symbols[i]))
    ensures forall k :: k in st && k !in symbols ==> r.store[k] == st[k]
    decreases |symbols|
  {
    if |symbols| == 0 then RefreshResult(st, [])
    else
      var step := UpdateStockMomentum(st, symbols[0], history, writeFails, now);
      var rest := UpdateEach(step.store, symbols[1..], history, writeFails, now);
      var log := [step.entry] + rest.log;
      assert forall i :: 1 <= i < |symbols| ==> log[i] == rest.log[i - 1] && symbols[i] == symbols[1..][i - 1];
      RefreshResult(rest.store, log)
  }

  predicate Distinct(symbols: seq<string>) {
    forall i, j :: 0 <= i < j < |symbols| ==> symbols[i] != symbols[j]
  }

  /** `symbols` lists every stored symbol once: what `Stock.find({}, {symbol: 1})` returns. */
  ghost predicate IsListing(symbols: seq<string>, st: Store) {
    && Distinct(symbols)
    && (forall i :: 0 <= i < |symbols| ==> symbols[i] in st)
    && (forall k :: k in st ==> k in symbols)
  }

  /**
   * Failure isolation: with distinct symbols, each symbol ends up exactly
   * as its own refresh would leave it from the initial store, whatever
   * happened to the symbols before or after it.
   */
  lemma {:induction false} EachSymbolIndependent(st: Store, symbols: seq<string>, history: HistoryProvider,
                                                 writeFails: string -> bool, now: int, k: string)
    requires Distinct(symbols)
    requires k in st && k in symbols
    ensures UpdateEach(st, symbols, history, writeFails, now).store[k] ==
            UpdateStockMomentum(st, k, history, writeFails, now).store[k]
    decreases |symbols|
  {
    var step := UpdateStockMomentum(st, symbols[0], history, writeFails, now);
    var rest := symbols[1..];
    if symbols[0] == k {
      assert k !in rest by {
        forall i | 0 <= i < |rest| ensures rest[i] != k {
          assert rest[i] == symbols[i + 1];
        }
      }
    } else {
      assert k in rest by {
        var i :| 0 <= i < |symbols| && symbols[i] == k;
        assert rest[i - 1] == k;
      }
      assert Distinct(rest) by {
        forall i, j | 0 <= i < j < |rest| ensures rest[i] != rest[j] {
          assert rest[i] == symbols[i + 1] && rest[j] == symbols[j + 1];
        }
      }
      EachSymbolIndependent(step.store, rest, history, writeFails, now, k);
      StepReadsOwnDocument(step.store, st, k, history, writeFails, now);
    }
  }

  /** A log that follows a listing names every stored symbol, each once. */
  lemma ListingLogged(st: Store, listing: seq<string>, log: seq<LogEntry>)
    requires IsListing(listing, st)
    requires |log| == |listing| && forall i :: 0 <= i < |listing| ==> log[i].symbol == listing[i]
    ensures forall k :: k in st <==> exists i :: 0 <= i < |log| && log[i].symbol == k
    ensures forall i, j :: 0 <= i < j < |log| ==> log[i].symbol != log[j].symbol
  {
    forall k | k in st ensures exists i :: 0 <= i < |log| && log[i].symbol == k {
      var i :| 0 <= i < |listing| && listing[i] == k;
      assert log[i].symbol == k;
    }
  }

  /**
   * `updateAllStocksMomentum`: refresh every stored symbol, in the order the
   * store lists them. Nothing is added or removed, each symbol is logged
   * exactly once, and one symbol's failure leaves the others' results alone.
   */
  function UpdateAllStocksMomentum(st: Store, listing: seq<string>, history: HistoryProvider,
                                   writeFails: string -> bool, now: int): (r: RefreshResult)
    requires IsListing(listing, st)
    ensures r.store.Keys == st.Keys
    ensures forall k :: k in st <==> exists i :: 0 <= i < |r.log| && r.log[i].symbol == k
    ensures forall i, j :: 0 <= i < j < |r.log| ==> r.log[i].symbol != r.log[j].symbol
    ensures |r.log| == |listing|
    ensures forall i :: 0 <= i < |r.log| ==>
              && r.log[i].symbol == listing[i]
              && (r.log[i].Failed? <==> history(listing[i]).FetchFailed? || writeFails(listing[i]))
  {
    var r := UpdateEach(st, listing, history, writeFails, now);
    ListingLogged(st, listing, r.log);
    r
  }

  /**
   * The intended effect: a symbol whose history arrives with at least two
   * closes, and whose write succeeds, gets the latest close as its price,
   * the percentage moves from the closes one, five and twenty-two trading
   * days back (or from the first close) as its changes, and the run's time
   * stamp.
   */
  lemma RefreshWritesDeliveredPrices(st: Store, listing: seq<string>, history: HistoryProvider,
                                     writeFails: string -> bool, now: int, k: string)
    requires IsListing(listing, st)
    requires k in st && !writeFails(k)
    requires history(k).Delivered? && history(k).series.Some? && |history(k).series.value| >= 2
    ensures var r := UpdateAllStocksMomentum(st, listing, history, writeFails, now);
            var s := history(k).series.value;
            var n := |s|;
            && r.store[k].currentPrice == Some(Last(s))
            && r.store[k].change1D.Some? && IsChange(r.store[k].change1D.value, Last(s), s[n - 2].close)
            && r.store[k].change1W.Some? && IsChange(r.store[k].change1W.value, Last(s), s[BaselineIndex(n, 6)].close)
            && r.store[k].change1M.Some? && IsChange(r.store[k].change1M.value, Last(s), s[BaselineIndex(n, 23)].close)
            && r.store[k].lastUpdated == now
            && OnlyRefreshFieldsDiffer(st[k], r.store[k])
  {
    EachSymbolIndependent(st, listing, history, writeFails, now, k);
  }

  /**
   * A series with fewer than two closes still stamps `lastUpdated` but
   * leaves price and changes as they were.
   */
  lemma ShortSeriesOnlyStampsTime(st: Store, symbol: string, history: HistoryProvider,
                                  writeFails: string -> bool, now: int)
    requires symbol in st && !writeFails(symbol)
    requires history(symbol).Delivered? && (history(symbol).series.None? || |history(symbol).series.value| < 2)
    ensures UpdateStockMomentum(st, symbol, history, writeFails, now).store[symbol] == st[symbol].(lastUpdated := now)
  {
  }

  // ----- The refresh as the source binds it -----

  /**
   * The history function the refresh imports is not exported by the quote
   * client, so the name is bound to `undefined` and calling it throws
   * inside the per-symbol `try`: every fetch fails.
   */
  function UnboundHistory(symbol: string): HistoryReply {
    FetchFailed
  }

  /** A refresh over a provider whose every fetch fails. */
  lemma {:induction false} FailingProviderChangesNothing(st: Store, symbols: seq<string>,
                                                         writeFails: string -> bool, now: int)
    ensures UpdateEach(st, symbols, UnboundHistory, writeFails, now).store == st
    ensures forall i :: 0 <= i < |symbols| ==> UpdateEach(st, symbols, UnboundHistory, writeFails, now).log[i].Failed?
    decreases |symbols|
  {
    if |symbols| > 0 {
      FailingProviderChangesNothing(st, symbols[1..], writeFails, now);
    }
  }

  /** `updateAllStocksMomentum` as the source binds it: every symbol fails and the store is unchanged. */
  function UpdateAllAsWritten(st: Store, listing: seq<string>, writeFails: string -> bool, now: int): (r: RefreshResult)
    requires IsListing(listing, st)
    ensures r.store == st
    ensures forall i :: 0 <= i < |r.log| ==> r.log[i].Failed?
  {
    FailingProviderChangesNothing(st, listing, writeFails, now);
    UpdateAllStocksMomentum(st, listing, UnboundHistory, writeFails, now)
  }
}

=== FILE: query.dfy ===
/**
 * Store queries as data. A query has the shape both route files build: a
 * condition on `riskBucket` plus an `$and` list whose entries are `$or`
 * lists of atoms (`{field: {$lte: bound}}` or `{field: {$exists: false}}`).
 * A sort is a list of (field, direction) pairs; a find carries a limit.
 * Executing a sort is not modelled; `IsFindResult` says what any answer of
 * the store to a find must satisfy.
 */
module QueryModel {
  import opened Wrappers
  import opened StockModel

  datatype BucketCond = BucketIs(bucket: string) | BucketIn(buckets: seq<string>)

  datatype Atom = Lte(field: NumField, bound: real) | Absent(field: NumField)

  datatype Query = Query(riskBucket: BucketCond, allOf: seq<seq<Atom>>)

  datatype Direction = Ascending | Descending

  datatype SortKey = SortKey(field: NumField, direction: Direction)

  datatype Selection = Selection(query: Query, sort: seq<SortKey>)

  datatype StockFind = StockFind(selection: Selection, limit: nat)

  predicate BucketMatches(c: BucketCond, r: StockRecord) {
    match c
    case BucketIs(b) => r.riskBucket == Some(b)
    case BucketIn(bs) => r.riskBucket.Some? && r.riskBucket.value in bs
  }

  /** `$lte` matches only a present number; `$exists: false` only a missing path. */
  predicate AtomMatches(a: Atom, r: StockRecord) {
    match a
    case Lte(f, bound) => NumValue(r, f).Some? && NumValue(r, f).value <= bound
    case Absent(f) => NumValue(r, f).None?
  }

  predicate AnyMatches(alternatives: seq<Atom>, r: StockRecord) {
    exists j :: 0 <= j < |alternatives| && AtomMatches(alternatives[j], r)
  }

  predicate Matches(q: Query, r: StockRecord) {
    && BucketMatches(q.riskBucket, r)
    && forall i :: 0 <= i < |q.allOf| ==> AnyMatches(q.allOf[i], r)
  }

  /** What the store promises of its answer `rs` to find `f`: stored documents, all matching, at most `limit`. */
  predicate IsFindResult(st: Store, f: StockFind, rs: seq<StockRecord>) {
    && |rs| <= f.limit
    && forall i :: 0 <= i < |rs| ==> rs[i] in st.Values && Matches(f.selection.query, rs[i])
  }
}

=== FILE: recommend_routes.dfy ===
/**
 * POST /api/recommendations: validate the form, score it, pick the tier's
 * query, ask the store for at most six documents and overwrite each
 * document's momentum from its one-month and one-week changes.
 */
module RecommendRoutes {
  import opened Wrappers
  import opened Text
  import opened StockModel
  import opened QueryModel
  import opened RiskEngine

  /**
   * The history-based momentum heuristic: both changes must be numbers;
   * bullish on a one-month gain of at least 8% with no weekly loss, bearish
   * on a one-month loss of at least 8% with no weekly gain.
   */
  function ComputeMomentum(change1M: Option<real>, change1W: Option<real>): (m: Momentum)
    ensures change1M.None? || change1W.None? ==> m == Neutral
    ensures m == Bullish <==> change1M.Some? && change1W.Some? && change1M.value >= 8.0 && change1W.value >= 0.0
    ensures m == Bearish <==> change1M.Some? && change1W.Some? && change1M.value <= -8.0 && change1W.value <= 0.0
  {
    if change1M.None? || change1W.None? then Neutral
    else if change1M.value >= 8.0 && change1W.value >= 0.0 then Bullish
    else if change1M.value <= -8.0 && change1W.value <= 0.0 then Bearish
    else Neutral
  }

  /** The seed documents' changes classify as their comments say. */
  lemma SeedMomentum()
    ensures ComputeMomentum(Some(9.5), Some(2.4)) == Bullish
    ensures ComputeMomentum(Some(4.0), Some(0.2)) == Neutral
    ensures ComputeMomentum(Some(-10.2), Some(-3.5)) == Bearish
    ensures ComputeMomentum(Some(12.3), Some(4.2)) == Bullish
    ensures ComputeMomentum(Some(9.0), Some(1.0)) == Bullish
    ensures ComputeMomentum(Some(-9.0), Some(-1.0)) == Bearish
    ensures ComputeMomentum(Some(5.0), Some(5.0)) == Neutral
    ensures ComputeMomentum(None, Some(3.0)) == Neutral
  {
  }

  /** The tier's query and sort, as the inline block builds them. */
  function RecommendSelection(p: RiskProfile): Selection {
    if p == Conservative then
      Selection(Query(BucketIs("low"), [[Lte(Beta, 1.05), Absent(Beta)], [Lte(DebtToEquity, 1.0), Absent(DebtToEquity)]]),
                [SortKey(DividendYield, Descending), SortKey(PeRatio, Ascending)])
    else if p == Aggressive then
      Selection(Query(BucketIn(["medium", "high"]), []),
                [SortKey(ProfitMargin, Descending), SortKey(PeRatio, Ascending)])
    else
      Selection(Query(BucketIn(["low", "medium"]), []), [SortKey(PeRatio, Ascending)])
  }

  const RecommendLimit: nat := 6

  function RecommendFind(p: RiskProfile): StockFind {
    StockFind(RecommendSelection(p), RecommendLimit)
  }

  function SelectionExplanation(p: RiskProfile): string {
    if p == Conservative then
      "These ideas are screened from the low-risk bucket, favouring businesses with relatively lower volatility, prudent leverage and a bias towards steady cash flows and dividends. The objective is to complement your capital-preservation oriented asset mix rather than maximise short-term upside."
    else if p == Aggressive then
      "These ideas are drawn from medium-to-high risk names with above-average profitability and earnings power, accepting higher price volatility in exchange for long-term growth potential. The bias is towards compounders where upside participation matters more than short-term drawdowns."
    else
      "The shortlist combines relatively stable and moderately aggressive names, aiming for a balance between downside protection and upside participation. Screening emphasises reasonable valuation and quality so that the equity sleeve stays aligned with a balanced risk profile."
  }

  /** Every document keeps all its fields but `momentum`, which is recomputed; count and order are kept. */
  function WithComputedMomentum(rs: seq<StockRecord>): (out: seq<StockRecord>)
    ensures |out| == |rs|
    ensures forall i :: 0 <= i < |rs| ==> out[i].(momentum := rs[i].momentum) == rs[i]
    ensures forall i :: 0 <= i < |rs| ==> out[i].momentum == ComputeMomentum(rs[i].change1M, rs[i].change1W)
  {
    seq(|rs|, i requires 0 <= i < |rs| => rs[i].(momentum := ComputeMomentum(rs[i].change1M, rs[i].change1W)))
  }

  /** Recomputing the momentum a second time changes nothing. */
  lemma WithComputedMomentumIdempotent(rs: seq<StockRecord>)
    ensures WithComputedMomentum(WithComputedMomentum(rs)) == WithComputedMomentum(rs)
  {
    var once := WithComputedMomentum(rs);
    var twice := WithComputedMomentum(once);
    assert forall i :: 0 <= i < |rs| ==> twice[i] == once[i];
  }

  datatype RecommendResponse =
    | BadRequest
    | InternalError
    | Recommendation(result: RiskResult, selectionExplanation: string, recommendedStocks: seq<StockRecord>)

  /**
   * The handler, with the store's `find` as a parameter (None when it
   * throws). A missing body or a falsy tolerance or drawdown answer is
   * rejected before scoring; an empty find result is a success.
   */
  function Recommend(body: Option<Answers>, find: StockFind -> Option<seq<StockRecord>>): (r: RecommendResponse)
    ensures r.BadRequest? <==>
              body.None? || !Truthy(body.value.riskTolerance) || !Truthy(body.value.marketDropResponse)
    ensures !r.BadRequest? ==> (r.InternalError? <==> find(RecommendFind(CalculateRiskProfile(body.value).riskProfile)).None?)
    ensures r.Recommendation? ==>
              && r.result == CalculateRiskProfile(body.value)
              && r.selectionExplanation == SelectionExplanation(r.result.riskProfile)
              && var raw := find(RecommendFind(r.result.riskProfile)).value;
              && |r.recommendedStocks| == |raw|
              && forall i :: 0 <= i < |raw| ==>
                   r.recommendedStocks[i] == raw[i].(momentum := ComputeMomentum(raw[i].change1M, raw[i].change1W))
  {
    if body.None? || !Truthy(body.value.riskTolerance) || !Truthy(body.value.marketDropResponse) then
      BadRequest
    else
      var result := CalculateRiskProfile(body.value);
      match find(RecommendFind(result.riskProfile))
      case None => InternalError
      case Some(raw) => Recommendation(result, SelectionExplanation(result.riskProfile), WithComputedMomentum(raw))
  }

  /** No matching document is not an error: the response lists no stocks. */
  lemma EmptySelectionSucceeds(a: Answers, find: StockFind -> Option<seq<StockRecord>>)
    requires Truthy(a.riskTolerance) && Truthy(a.marketDropResponse)
    requires find(RecommendFind(CalculateRiskProfile(a).riskProfile)) == Some([])
    ensures Recommend(Some(a), find).Recommendation?
    ensures Recommend(Some(a), find).recommendedStocks == []
  {
  }

  /** A document's momentum plays no part in any query. */
  lemma MatchesIgnoresMomentum(q: Query, r: StockRecord, m: Momentum)
    ensures Matches(q, r) <==> Matches(q, r.(momentum := m))
  {
    var r' := r.(momentum := m);
    assert forall f :: NumValue(r, f) == NumValue(r', f);
    assert forall at :: AtomMatches(at, r) <==> AtomMatches(at, r');
    assert forall alts :: AnyMatches(alts, r) <==> AnyMatches(alts, r');
  }

  /** Recomputing momentum keeps every document inside the query it matched. */
  lemma ComputedMomentumKeepsMatches(q: Query, raw: seq<StockRecord>)
    requires forall i :: 0 <= i < |raw| ==> Matches(q, raw[i])
    ensures forall i :: 0 <= i < |raw| ==> Matches(q, WithComputedMomentum(raw)[i])
  {
    var out := WithComputedMomentum(raw);
    forall i | 0 <= i < |raw|
      ensures Matches(q, out[i])
    {
      MatchesIgnoresMomentum(q, raw[i], out[i].momentum);
      assert out[i] == raw[i].(momentum := out[i].momentum);
    }
  }

  /**
   * When the store answers faithfully, at most six documents come back and
   * each matches the tier's query.
   */
  lemma RecommendedStocksMatchTier(st: Store, body: Option<Answers>, find: StockFind -> Option<seq<StockRecord>>)
    requires Recommend(body, find).Recommendation?
    requires var f := RecommendFind(Recommend(body, find).result.riskProfile);
             find(f).Some? && IsFindResult(st, f, find(f).value)
    ensures |Recommend(body, find).recommendedStocks| <= RecommendLimit
    ensures forall i :: 0 <= i < |Recommend(body, find).recommendedStocks| ==>
              Matches(RecommendSelection(Recommend(body, find).result.riskProfile).query,
                      Recommend(body, find).recommendedStocks[i])
  {
    var r := Recommend(body, find);
    var f := RecommendFind(r.result.riskProfile);
    ComputedMomentumKeepsMatches(f.selection.query, find(f).value);
  }
}

=== FILE: risk_engine.dfy ===
/**
 * The questionnaire scoring engine: six categorical answers give an integer
 * score, the score a risk profile, the profile a fixed four-way asset
 * allocation, and profile, horizon and emergency-fund answer a templated
 * description. Unrecognised or missing answers add nothing.
 */
module RiskEngine {
  import opened Wrappers

  /** The form fields the engine reads; any of them may be missing. */
  datatype Answers = Answers(
    age: Option<string>,
    income: Option<string>,
    emergencyFund: Option<string>,
    investmentHorizon: Option<string>,
    marketDropResponse: Option<string>,
    riskTolerance: Option<string>)

  datatype RiskProfile = Conservative | Moderate | Aggressive

  /** Percentages of stocks, bonds, gold and cash. */
  datatype Allocation = Allocation(stocks: int, bonds: int, gold: int, cash: int)

  datatype Meta = Meta(score: int, factors: Answers)

  datatype RiskResult = RiskResult(
    riskProfile: RiskProfile,
    description: string,
    allocation: Allocation,
    meta: Meta)

  /** The profile as the string the routes compare against. */
  function ProfileName(p: RiskProfile): string {
    match p
    case Conservative => "Conservative"
    case Moderate => "Moderate"
    case Aggressive => "Aggressive"
  }

  /** Position of a profile on the scale from least to most risk. */
  function Rank(p: RiskProfile): nat {
    match p
    case Conservative => 0
    case Moderate => 1
    case Aggressive => 2
  }

  // ----- Score -----

  /** `answer === text`: a missing answer equals no string. */
  predicate Is(answer: Option<string>, text: string) {
    answer == Some(text)
  }

  /** Reads a factor's adjustment off its table; an answer not listed adds 0. */
  function Lookup(table: map<string, int>, answer: Option<string>): int {
    if answer.Some? && answer.value in table then table[answer.value] else 0
  }

  // The adjustment tables, as data.
  const AgeTable: map<string, int> :=
    map["18-25" := 10, "26-35" := 8, "36-45" := 4, "46-55" := 1, "55+" := -4]
  const HorizonTable: map<string, int> :=
    map["10+ years" := 15, "5-10 years" := 10, "5-10 Years" := 10, "3-5 years" := 5, "1-3 years" := -5]
  const EmergencyFundTable: map<string, int> :=
    map["yes" := 5, "no" := -10]
  const IncomeTable: map<string, int> :=
    map["<5L" := -3, "5L-10L" := 0, "10L-20L" := 3, "20L-50L" := 6, ">50L" := 8]
  const DrawdownTable: map<string, int> :=
    map["sell-all" := -20, "sell-some" := -10, "do-nothing" := 5, "buy-more" := 15]
  const ToleranceTable: map<string, int> :=
    map["Conservative" := -8, "Moderate" := 0, "Aggressive" := 10]

  function AgeAdjustment(age: Option<string>): (d: int)
    ensures d == Lookup(AgeTable, age)
    ensures -4 <= d <= 10
  {
    if Is(age, "18-25") then 10
    else if Is(age, "26-35") then 8
    else if Is(age, "36-45") then 4
    else if Is(age, "46-55") then 1
    else if Is(age, "55+") then -4
    else 0
  }

  function HorizonAdjustment(horizon: Option<string>): (d: int)
    ensures d == Lookup(HorizonTable, horizon)
    ensures -5 <= d <= 15
  {
    if Is(horizon, "10+ years") then 15
    else if Is(horizon, "5-10 years") || Is(horizon, "5-10 Years") then 10
    else if Is(horizon, "3-5 years") then 5
    else if Is(horizon, "1-3 years") then -5
    else 0
  }

  function EmergencyFundAdjustment(emergencyFund: Option<string>): (d: int)
    ensures d == Lookup(EmergencyFundTable, emergencyFund)
    ensures -10 <= d <= 5
  {
    if Is(emergencyFund, "yes") then 5
    else if Is(emergencyFund, "no") then -10
    else 0
  }

  function IncomeAdjustment(income: Option<string>): (d: int)
    ensures d == Lookup(IncomeTable, income)
    ensures -3 <= d <= 8
  {
    if Is(income, "<5L") then -3
    else if Is(income, "5L-10L") then 0
    else if Is(income, "10L-20L") then 3
    else if Is(income, "20L-50L") then 6
    else if Is(income, ">50L") then 8
    else 0
  }

  function DrawdownAdjustment(response: Option<string>): (d: int)
    ensures d == Lookup(DrawdownTable, response)
    ensures -20 <= d <= 15
  {
    if Is(response, "sell-all") then -20
    else if Is(response, "sell-some") then -10
    else if Is(response, "do-nothing") then 5
    else if Is(response, "buy-more") then 15
    else 0
  }

  function ToleranceAdjustment(tolerance: Option<string>): (d: int)
    ensures d == Lookup(ToleranceTable, tolerance)
    ensures -8 <= d <= 10
  {
    if Is(tolerance, "Conservative") then -8
    else if Is(tolerance, "Moderate") then 0
    else if Is(tolerance, "Aggressive") then 10
    else 0
  }

  /** Base 50 plus one table entry per factor; always within [0, 113]. */
  function Score(a: Answers): (s: int)
    ensures s == 50 + Lookup(AgeTable, a.age) + Lookup(HorizonTable, a.investmentHorizon)
                    + Lookup(EmergencyFundTable, a.emergencyFund) + Lookup(IncomeTable, a.income)
                    + Lookup(DrawdownTable, a.marketDropResponse) + Lookup(ToleranceTable, a.riskTolerance)
    ensures 0 <= s <= 113
  {
    50 + AgeAdjustment(a.age) + HorizonAdjustment(a.investmentHorizon)
       + EmergencyFundAdjustment(a.emergencyFund) + IncomeAdjustment(a.income)
       + DrawdownAdjustment(a.marketDropResponse) + ToleranceAdjustment(a.riskTolerance)
  }

  /** A form with no recognised answer scores exactly the base. */
  lemma UnansweredFormScoresBase()
    ensures Score(Answers(None, None, None, None, None, None)) == 50
    ensures Score(Answers(Some("?"), Some("?"), Some("maybe"), Some("?"), Some("?"), Some("?"))) == 50
  {
  }

  /** Both spellings of the five-to-ten-year horizon score alike. */
  lemma HorizonSpellingsAgree(a: Answers)
    requires a.investmentHorizon == Some("5-10 years")
    ensures Score(a) == Score(a.(investmentHorizon := Some("5-10 Years")))
    ensures HorizonAdjustment(a.investmentHorizon) == 10
  {
  }

  /** The bounds are reached: 0 by the most cautious form, 113 by the boldest. */
  lemma ScoreBoundsAttained()
    ensures Score(Answers(Some("55+"), Some("<5L"), Some("no"), Some("1-3 years"), Some("sell-all"), Some("Conservative"))) == 0
    ensures Score(Answers(Some("18-25"), Some(">50L"), Some("yes"), Some("10+ years"), Some("buy-more"), Some("Aggressive"))) == 113
  {
  }

  // ----- Profile -----

  function TierOf(score: int): (p: RiskProfile)
    ensures p == Conservative <==> score <= 45
    ensures p == Aggressive <==> score >= 70
    ensures p == Moderate <==> 45 < score < 70
  {
    if score <= 45 then Conservative
    else if score >= 70 then Aggressive
    else Moderate
  }

  /** A higher score never gives a more cautious profile. */
  lemma TierMonotone(s1: int, s2: int)
    requires s1 <= s2
    ensures Rank(TierOf(s1)) <= Rank(TierOf(s2))
  {
  }

  /** The exact thresholds. */
  lemma TierBoundaries()
    ensures TierOf(45) == Conservative && TierOf(46) == Moderate
    ensures TierOf(69) == Moderate && TierOf(70) == Aggressive
  {
  }

  // ----- Allocation -----

  function AllocationFor(p: RiskProfile): (a: Allocation)
    ensures a.stocks + a.bonds + a.gold + a.cash == 100
    ensures a.stocks > 0 && a.bonds > 0 && a.gold > 0 && a.cash > 0
    ensures a in {Allocation(25, 45, 20, 10), Allocation(55, 30, 10, 5), Allocation(80, 10, 5, 5)}
  {
    match p
    case Conservative => Allocation(25, 45, 20, 10)
    case Aggressive => Allocation(80, 10, 5, 5)
    case Moderate => Allocation(55, 30, 10, 5)
  }

  /** More risk means strictly more stocks and strictly fewer bonds. */
  lemma AllocationOrderedByRisk(p: RiskProfile, q: RiskProfile)
    requires Rank(p) < Rank(q)
    ensures AllocationFor(p).stocks < AllocationFor(q).stocks
    ensures AllocationFor(p).bonds > AllocationFor(q).bonds
  {
  }

  /** The three allocations are distinct: the allocation identifies the profile. */
  lemma AllocationIdentifiesProfile(p: RiskProfile, q: RiskProfile)
    requires AllocationFor(p) == AllocationFor(q)
    ensures p == q
  {
  }

  // ----- Description -----

  const ConservativeSentence: string :=
    "You appear to be a conservative investor" + " who prioritises capital preservation and lower volatility over aggressive growth."
  const AggressiveSentence: string :=
    "You appear to be an aggressive investor" + " who is comfortable with meaningful short-term volatility in pursuit of higher long-term returns."
  const ModerateSentence: string :=
    "You appear to be a moderate investor" + " who seeks a balance between growth and capital protection."
  const HasFundText: string :=
    "You already have an emergency fund, which increases your capacity to take risk."
  const BuildingFundText: string :=
    "You are still building your emergency fund, so your plan should leave some room for safety."
  const UnknownHorizonText: string := "your stated investment horizon"

  function ProfileSentence(p: RiskProfile): string {
    match p
    case Conservative => ConservativeSentence
    case Aggressive => AggressiveSentence
    case Moderate => ModerateSentence
  }

  function HorizonText(horizon: Option<string>): string {
    if Is(horizon, "1-3 years") then "a relatively short investment horizon"
    else if Is(horizon, "3-5 years") then "a medium-term investment horizon"
    else if Is(horizon, "5-10 years") || Is(horizon, "5-10 Years") then "a long-term investment horizon"
    else if Is(horizon, "10+ years") then "a very long-term investment horizon"
    else UnknownHorizonText
  }

  function EmergencyText(emergencyFund: Option<string>): string {
    if Is(emergencyFund, "yes") then HasFundText else BuildingFundText
  }

  /** The words between the profile sentence and the horizon phrase. */
  const AnswersSuggest: string := " Your answers suggest "

  /** Profile sentence, then the horizon sentence, then the emergency-fund sentence. */
  function Describe(p: RiskProfile, horizon: Option<string>, emergencyFund: Option<string>): (d: string)
    ensures ProfileSentence(p) <= d
    ensures d[|d| - |EmergencyText(emergencyFund)|..] == EmergencyText(emergencyFund)
  {
    ProfileSentence(p) + AnswersSuggest + HorizonText(horizon) + ". " + EmergencyText(emergencyFund)
  }

  /**
   * Where each part of the description sits: the profile sentence, the
   * words " Your answers suggest ", the horizon phrase, ". " and the
   * emergency-fund sentence, with nothing else in between.
   */
  lemma DescriptionLayout(p: RiskProfile, horizon: Option<string>, emergencyFund: Option<string>)
    ensures var d := Describe(p, horizon, emergencyFund);
            var h := |ProfileSentence(p)| + |AnswersSuggest|;
            var e := h + |HorizonText(horizon)|;
            && |d| == e + 2 + |EmergencyText(emergencyFund)|
            && d[..|ProfileSentence(p)|] == ProfileSentence(p)
            && d[|ProfileSentence(p)|..h] == AnswersSuggest
            && d[h..e] == HorizonText(horizon)
            && d[e..e + 2] == ". "
            && d[e + 2..] == EmergencyText(emergencyFund)
  {
    ConcatLayout(ProfileSentence(p), AnswersSuggest, HorizonText(horizon), ". ", EmergencyText(emergencyFund));
  }

  /**
   * The horizon sentence reaches the text: for one profile and fund answer,
   * two descriptions are equal exactly when their horizon phrases are.
   */
  lemma DescriptionNamesHorizon(p: RiskProfile, h1: Option<string>, h2: Option<string>, emergencyFund: Option<string>)
    ensures Describe(p, h1, emergencyFund) == Describe(p, h2, emergencyFund) <==> HorizonText(h1) == HorizonText(h2)
  {
    DescriptionLayout(p, h1, emergencyFund);
    DescriptionLayout(p, h2, emergencyFund);
  }

  /** Where each part of a five-part concatenation sits. */
  lemma ConcatLayout(a: string, b: string, c: string, m: string, e: string)
    ensures var d := a + b + c + m + e;
            && |d| == |a| + |b| + |c| + |m| + |e|
            && a <= d
            && d[|a|..|a| + |b|] == b
            && d[|a| + |b|..|a| + |b| + |c|] == c
            && d[|a| + |b| + |c|..|a| + |b| + |c| + |m|] == m
            && d[|a| + |b| + |c| + |m|..] == e
  {
    var d := a + b + c + m + e;
    assert d == a + (b + (c + (m + e)));
  }

  /**
   * Every answer other than "yes" gets the still-building sentence, though
   * only "no" lowered the score; a horizon outside the table gets the
   * generic phrase though it did not move the score.
   */
  lemma DescriptionFallbacks(a: Answers)
    ensures !Is(a.emergencyFund, "yes") ==> EmergencyText(a.emergencyFund) == BuildingFundText
    ensures a.emergencyFund.None? ==> EmergencyFundAdjustment(a.emergencyFund) == 0
    ensures a.investmentHorizon.Some? && a.investmentHorizon.value !in HorizonTable ==>
              HorizonText(a.investmentHorizon) == UnknownHorizonText && HorizonAdjustment(a.investmentHorizon) == 0
  {
  }

  /** Both spellings of the five-to-ten-year horizon read as long-term. */
  lemma HorizonSpellingsDescribeAlike()
    ensures HorizonText(Some("5-10 years")) == HorizonText(Some("5-10 Years")) == "a long-term investment horizon"
  {
  }

  /** The description names the profile: two equal descriptions have equal profiles. */
  lemma DescriptionIdentifiesProfile(p: RiskProfile, h1: Option<string>, e1: Option<string>,
                                     q: RiskProfile, h2: Option<string>, e2: Option<string>)
    requires Describe(p, h1, e1) == Describe(q, h2, e2)
    ensures p == q
  {
    SentenceMarks(p);
    SentenceMarks(q);
    SharedPrefixChar(ProfileSentence(p), ProfileSentence(q), Describe(p, h1, e1), 19);
  }

  /** Two prefixes of one string agree wherever both are defined. */
  lemma SharedPrefixChar(x: string, y: string, d: string, i: nat)
    requires x <= d && y <= d && i < |x| && i < |y|
    ensures x[i] == y[i]
  {
    assert x[i] == d[i];
  }

  /**
   * The character at which the three profile sentences first part ways. All
   * three open with "You appear to be a" (indices 0 to 17); index 18 is the
   * 'n' of "an aggressive" or the space of "a conservative" / "a moderate",
   * so index 19 is 'c', ' ' or 'm': a different character for each profile.
   */
  function SentenceMark(p: RiskProfile): char {
    match p
    case Conservative => 'c'
    case Aggressive => ' '
    case Moderate => 'm'
  }

  lemma SentenceMarks(p: RiskProfile)
    ensures |ProfileSentence(p)| > 19 && ProfileSentence(p)[19] == SentenceMark(p)
  {
  }

  // ----- Result -----

  /** The whole assessment, with the six answers echoed back unchanged. */
  function CalculateRiskProfile(a: Answers): (r: RiskResult)
    ensures r.meta.factors == a
    ensures r.meta.score == Score(a) && 0 <= r.meta.score <= 113
    ensures r.riskProfile == TierOf(r.meta.score)
    ensures r.allocation == AllocationFor(r.riskProfile)
    ensures r.allocation.stocks + r.allocation.bonds + r.allocation.gold + r.allocation.cash == 100
    ensures ProfileSentence(r.riskProfile) <= r.description
    ensures r.description == Describe(r.riskProfile, a.investmentHorizon, a.emergencyFund)
  {
    var score := Score(a);
    var profile := TierOf(score);
    RiskResult(profile, Describe(profile, a.investmentHorizon, a.emergencyFund), AllocationFor(profile),
               Meta(score, a))
  }
}

=== FILE: selection_agreement.dfy ===
/** The two copies of the tier-to-query mapping, side by side. */
module SelectionAgreement {
  import opened QueryModel
  import opened RiskEngine
  import RecommendRoutes
  import AiAdviceRoutes

  /** For every profile the engine can produce, both routes build the same query and sort. */
  lemma CopiesAgree(p: RiskProfile)
    ensures RecommendRoutes.RecommendSelection(p) == AiAdviceRoutes.BuildStockQueryForRisk(ProfileName(p))
  {
  }

  /** The two finds differ only in their limit: six for recommendations, twelve for the advisor. */
  lemma FindsDifferOnlyInLimit(p: RiskProfile)
    ensures RecommendRoutes.RecommendFind(p).selection == AiAdviceRoutes.AdviceFind(p).selection
    ensures RecommendRoutes.RecommendFind(p).limit == 6 && AiAdviceRoutes.AdviceFind(p).limit == 12
  {
    CopiesAgree(p);
  }
}

=== FILE: sequences.dfy ===
/** Sequence facts the sync laws are stated with: subsequences and the positions a predicate picks out. */
module Sequences {

  /** `xs` can be obtained from `ys` by deleting elements. */
  predicate IsSubsequence<T(==)>(xs: seq<T>, ys: seq<T>)
    decreases |ys|
  {
    if |xs| == 0 then true
    else if |ys| == 0 then false
    else if xs[0] == ys[0] then IsSubsequence(xs[1..], ys[1..])
    else IsSubsequence(xs, ys[1..])
  }

  /** The positions of the elements `keep` accepts: every one of them, each once, in increasing order. */
  function Positions<T>(xs: seq<T>, keep: T -> bool): (ps: seq<nat>)
    ensures forall j :: 0 <= j < |ps| ==> ps[j] < |xs| && keep(xs[ps[j]])
    ensures forall j, j' :: 0 <= j < j' < |ps| ==> ps[j] < ps[j']
    ensures forall i :: 0 <= i < |xs| && keep(xs[i]) ==> i in ps
    decreases |xs|
  {
    if |xs| == 0 then []
    else
      var n := |xs| - 1;
      var front := xs[..n];
      var ps := Positions(front, keep);
      var r := if keep(xs[n]) then ps + [n] else ps;
      assert forall i :: 0 <= i < |xs| && keep(xs[i]) ==> i in r by {
        forall i | 0 <= i < |xs| && keep(xs[i])
          ensures i in r
        {
          if i < n {
            assert front[i] == xs[i];
          }
        }
      }
      r
  }
}

=== FILE: stock.dfy ===
/**
 * The stock document of the persistent store and the store itself: a map
 * from the unique `symbol` to the document.
 */
module StockModel {
  import opened Wrappers

  datatype Momentum = Bullish | Bearish | Neutral

  /** The values the schema's `riskBucket` enum admits. */
  const RiskBuckets: set<string> := {"low", "medium", "high"}

  /**
   * One stock document. Optional fields are `Option`s (a missing field and a
   * stored `null` are not told apart). `riskBucket` is kept as a string:
   * updates do not run the schema's enum validator, so a store may hold a
   * value outside the enum, which `SchemaValid` rules out.
   */
  datatype StockRecord = StockRecord(
    symbol: string,
    name: Option<string>,
    exchange: string,
    sector: Option<string>,
    currentPrice: Option<real>,
    peRatio: Option<real>,
    beta: Option<real>,
    dividendYield: Option<real>,
    debtToEquity: Option<real>,
    profitMargin: Option<real>,
    freeCashFlow: Option<real>,
    riskBucket: Option<string>,
    change1D: Option<real>,
    change1W: Option<real>,
    change1M: Option<real>,
    momentum: Momentum,
    lastUpdated: int)

  type Store = map<string, StockRecord>

  /** The numeric paths a query may compare or sort on. */
  datatype NumField =
    | CurrentPrice | PeRatio | Beta | DividendYield | DebtToEquity | ProfitMargin
    | FreeCashFlow | Change1D | Change1W | Change1M

  function NumValue(r: StockRecord, f: NumField): Option<real> {
    match f
    case CurrentPrice => r.currentPrice
    case PeRatio => r.peRatio
    case Beta => r.beta
    case DividendYield => r.dividendYield
    case DebtToEquity => r.debtToEquity
    case ProfitMargin => r.profitMargin
    case FreeCashFlow => r.freeCashFlow
    case Change1D => r.change1D
    case Change1W => r.change1W
    case Change1M => r.change1M
  }

  /**
   * A document created by an upsert that names only its key: every optional
   * path absent, `exchange` "NSE", `momentum` neutral, `lastUpdated` the
   * insertion time.
   */
  function NewRecord(symbol: string, insertedAt: int): StockRecord {
    StockRecord(symbol, None, "NSE", None, None, None, None, None, None, None, None,
                None, None, None, None, Neutral, insertedAt)
  }

  /** What the schema demands of a document: a name, and a bucket from the enum. */
  predicate SchemaValid(r: StockRecord) {
    r.name.Some? && (r.riskBucket.None? || r.riskBucket.value in RiskBuckets)
  }

  /** `symbol` is the identity: every document sits under its own symbol. */
  predicate KeyedBySymbol(st: Store) {
    forall k :: k in st ==> st[k].symbol == k
  }

  /** A fresh document has the schema's defaults and sits under its own key. */
  lemma NewRecordDefaults(symbol: string, insertedAt: int)
    ensures NewRecord(symbol, insertedAt).exchange == "NSE"
    ensures NewRecord(symbol, insertedAt).momentum == Neutral
    ensures NewRecord(symbol, insertedAt).lastUpdated == insertedAt
    ensures KeyedBySymbol(map[symbol := NewRecord(symbol, insertedAt)])
    ensures forall f :: NumValue(NewRecord(symbol, insertedAt), f).None?
  {
  }
}

=== FILE: sync_laws.dfy ===
/**
 * Properties of a whole reconciliation run: which suggestions come back,
 * what the store looks like afterwards, failure isolation and idempotence.
 */
module SyncLaws {
  import opened Wrappers
  import opened StockModel
  import opened AiStockSync
  import RecommendRoutes
  import opened Sequences

  // ----- Which suggestions come back -----

  function WrittenWith(fetch: QuoteProvider): Suggestion -> bool {
    s => Written(s, fetch)
  }

  /** The positions of the written suggestions. */
  function WrittenPositions(items: seq<Suggestion>, fetch: QuoteProvider): seq<nat> {
    Positions(items, WrittenWith(fetch))
  }

  /** Keeping distributes over concatenation. */
  lemma {:induction false} KeptAppend(xs: seq<Suggestion>, ys: seq<Suggestion>, fetch: QuoteProvider)
    ensures Kept(xs + ys, fetch) == Kept(xs, fetch) + Kept(ys, fetch)
    decreases |xs|
  {
    if |xs| > 0 {
      assert (xs + ys)[1..] == xs[1..] + ys;
      KeptAppend(xs[1..], ys, fetch);
    } else {
      assert xs + ys == ys;
    }
  }

  /** The kept suggestions are exactly the suggestions at the written positions, in order. */
  lemma {:induction false} KeptAtWrittenPositions(items: seq<Suggestion>, fetch: QuoteProvider)
    ensures |Kept(items, fetch)| == |WrittenPositions(items, fetch)|
    ensures forall j :: 0 <= j < |Kept(items, fetch)| ==> Kept(items, fetch)[j] == items[WrittenPositions(items, fetch)[j]]
    decreases |items|
  {
    if |items| > 0 {
      var n := |items| - 1;
      var front := items[..n];
      KeptAtWrittenPositions(front, fetch);
      assert items == front + [items[n]];
      KeptAppend(front, [items[n]], fetch);
      assert Kept([items[n]], fetch) == (if Written(items[n], fetch) then [items[n]] else []) by {
        assert [items[n]][1..] == [];
      }
      var ks := Kept(items, fetch);
      var ps := WrittenPositions(items, fetch);
      forall j | 0 <= j < |ks|
        ensures ks[j] == items[ps[j]]
      {
        if j < |Kept(front, fetch)| {
          assert ks[j] == Kept(front, fetch)[j];
          assert ps[j] == WrittenPositions(front, fetch)[j];
          assert front[ps[j]] == items[ps[j]];
        }
      }
    }
  }

  /**
   * The kept suggestions are an ordered subsequence of the input that misses
   * no written suggestion; a written suggestion given twice is kept twice.
   */
  lemma {:induction false} KeptIsOrderedSubsequence(items: seq<Suggestion>, fetch: QuoteProvider)
    ensures IsSubsequence(Kept(items, fetch), items)
    ensures forall i :: 0 <= i < |items| && Written(items[i], fetch) ==> items[i] in Kept(items, fetch)
    ensures |Kept(items, fetch)| == |WrittenPositions(items, fetch)|
    ensures forall j :: 0 <= j < |Kept(items, fetch)| ==> Kept(items, fetch)[j] == items[WrittenPositions(items, fetch)[j]]
    decreases |items|
  {
    KeptAtWrittenPositions(items, fetch);
    if |items| > 0 {
      KeptIsOrderedSubsequence(items[1..], fetch);
      forall i | 0 <= i < |items| && Written(items[i], fetch)
        ensures items[i] in Kept(items, fetch)
      {
        if i > 0 {
          assert items[i] == items[1..][i - 1];
        }
      }
    }
  }

  /** Every kept suggestion is written: it resolves and its quote arrives. */
  lemma KeptAreWritten(items: seq<Suggestion>, fetch: QuoteProvider)
    ensures forall j :: 0 <= j < |Kept(items, fetch)| ==> Written(Kept(items, fetch)[j], fetch)
  {
    KeptAtWrittenPositions(items, fetch);
    var ks := Kept(items, fetch);
    var ps := WrittenPositions(items, fetch);
    forall j | 0 <= j < |ks|
      ensures Written(ks[j], fetch)
    {
      assert ks[j] == items[ps[j]];
      assert WrittenWith(fetch)(items[ps[j]]);
    }
  }

  /** The set of store keys a run writes to. */
  function Touched(items: seq<Suggestion>, fetch: QuoteProvider): set<string>
    decreases |items|
  {
    if |items| == 0 then {}
    else if Written(items[0], fetch) then {StoreKey(items[0])} + Touched(items[1..], fetch)
    else Touched(items[1..], fetch)
  }

  /** Some element of the list cannot be read. */
  predicate HasMalformed(items: seq<Suggestion>) {
    exists i :: 0 <= i < |items| && items[i].Malformed?
  }

  lemma HasMalformedFirstOrRest(items: seq<Suggestion>)
    requires |items| > 0
    ensures HasMalformed(items) <==> items[0].Malformed? || HasMalformed(items[1..])
  {
    if HasMalformed(items) && !items[0].Malformed? {
      var i :| 0 <= i < |items| && items[i].Malformed?;
      assert items[1..][i - 1].Malformed?;
    }
    if HasMalformed(items[1..]) {
      var i :| 0 <= i < |items[1..]| && items[1..][i].Malformed?;
      assert items[i + 1].Malformed?;
    }
  }

  /**
   * A run stops early exactly when some element cannot be read, or the
   * store fails on the key of some kept suggestion.
   */
  lemma {:induction false} AbortedIffStoreFailure(items: seq<Suggestion>, fetch: QuoteProvider,
                                                  storeFails: string -> bool, insertedAt: int, st: Store)
    ensures SyncAIStocks(items, fetch, storeFails, insertedAt, st).Aborted? <==>
              HasMalformed(items) || (exists k :: k in Touched(items, fetch) && storeFails(k))
    decreases |items|
  {
    if |items| > 0 {
      HasMalformedFirstOrRest(items);
      match SyncStep(items[0], fetch, storeFails, insertedAt, st)
      case Skipped => AbortedIffStoreFailure(items[1..], fetch, storeFails, insertedAt, st);
      case Threw =>
      case Stored(_, st') => AbortedIffStoreFailure(items[1..], fetch, storeFails, insertedAt, st');
    }
  }

  // ----- The store after a run -----

  /**
   * `final` is `st` with exactly the keys `touched` written: those keys are
   * added, every other document is as it was, and each written document has
   * the weekly change cleared, its own key as symbol, and the fields no
   * update writes (sector, beta, dividend yield, debt/equity, margin, cash
   * flow, lastUpdated) as they were before or as the defaults give them.
   */
  predicate WritesOnly(st: Store, final: Store, touched: set<string>, insertedAt: int) {
    && final.Keys == st.Keys + touched
    && (forall k :: k in st && k !in touched ==> final[k] == st[k])
    && (forall k :: k in touched ==>
          && k in final
          && final[k].change1W.None?
          && final[k].symbol == k
          && SameUnsyncedFields(final[k], Base(st, k, insertedAt)))
  }

  /** One upsert in front of a run that writes `rest` makes a run that writes its key and `rest`. */
  lemma WritesOnlyStep(st: Store, u: SyncUpdate, insertedAt: int, rest: set<string>, final: Store)
    requires u.change1W.None?
    requires WritesOnly(Upsert(st, u, insertedAt), final, rest, insertedAt)
    ensures WritesOnly(st, final, {u.symbol} + rest, insertedAt)
  {
    var st' := Upsert(st, u, insertedAt);
    forall k | k in st && k !in {u.symbol} + rest
      ensures final[k] == st[k]
    {
      assert final[k] == st'[k];
    }
    forall k | k in {u.symbol} + rest
      ensures k in final && final[k].change1W.None? && final[k].symbol == k
      ensures SameUnsyncedFields(final[k], Base(st, k, insertedAt))
    {
      assert SameUnsyncedFields(Base(st', k, insertedAt), Base(st, k, insertedAt));
      if k !in rest {
        assert k == u.symbol && final[k] == st'[k];
      }
    }
  }

  /** A completed run writes exactly the keys of its written suggestions. */
  lemma {:induction false} SyncFrame(items: seq<Suggestion>, fetch: QuoteProvider,
                                     storeFails: string -> bool, insertedAt: int, st: Store)
    requires SyncAIStocks(items, fetch, storeFails, insertedAt, st).Completed?
    ensures WritesOnly(st, SyncAIStocks(items, fetch, storeFails, insertedAt, st).store, Touched(items, fetch), insertedAt)
    decreases |items|
  {
    if |items| > 0 {
      var s := items[0];
      match SyncStep(s, fetch, storeFails, insertedAt, st)
      case Skipped => SyncFrame(items[1..], fetch, storeFails, insertedAt, st);
      case Threw =>
      case Stored(_, st') =>
        SyncFrame(items[1..], fetch, storeFails, insertedAt, st');
        WritesOnlyStep(st, BuildUpdate(s, Fetched(s, fetch).value), insertedAt, Touched(items[1..], fetch),
                       SyncAIStocks(items[1..], fetch, storeFails, insertedAt, st').store);
    }
  }

  /** The store stays keyed by symbol. */
  lemma SyncKeepsKeys(items: seq<Suggestion>, fetch: QuoteProvider,
                      storeFails: string -> bool, insertedAt: int, st: Store)
    requires KeyedBySymbol(st)
    requires SyncAIStocks(items, fetch, storeFails, insertedAt, st).Completed?
    ensures KeyedBySymbol(SyncAIStocks(items, fetch, storeFails, insertedAt, st).store)
  {
    SyncFrame(items, fetch, storeFails, insertedAt, st);
  }

  /**
   * A reconciled document has no weekly change, so the recommendation
   * route's momentum rule always calls it neutral.
   */
  lemma SyncedRecordsRecommendNeutral(items: seq<Suggestion>, fetch: QuoteProvider,
                                      storeFails: string -> bool, insertedAt: int, st: Store, k: string)
    requires SyncAIStocks(items, fetch, storeFails, insertedAt, st).Completed?
    requires k in Touched(items, fetch)
    ensures k in SyncAIStocks(items, fetch, storeFails, insertedAt, st).store
    ensures var r := SyncAIStocks(items, fetch, storeFails, insertedAt, st).store[k];
            RecommendRoutes.ComputeMomentum(r.change1M, r.change1W) == Neutral
  {
    SyncFrame(items, fetch, storeFails, insertedAt, st);
  }

  // ----- Failure isolation -----

  /** A readable suggestion whose resolution or fetch fails changes nothing: the run is as if it were absent. */
  lemma {:induction false} SkippedSuggestionIsInvisible(items: seq<Suggestion>, k: nat, fetch: QuoteProvider,
                                                        storeFails: string -> bool, insertedAt: int, st: Store)
    requires k < |items| && items[k].Suggestion? && !Written(items[k], fetch)
    ensures SyncAIStocks(items, fetch, storeFails, insertedAt, st) ==
            SyncAIStocks(items[..k] + items[k + 1..], fetch, storeFails, insertedAt, st)
    decreases k
  {
    var without := items[..k] + items[k + 1..];
    if k == 0 {
      assert without == items[1..];
    } else {
      assert without[0] == items[0];
      assert without[1..] == items[1..][..k - 1] + items[1..][k..];
      match SyncStep(items[0], fetch, storeFails, insertedAt, st)
      case Skipped => SkippedSuggestionIsInvisible(items[1..], k - 1, fetch, storeFails, insertedAt, st);
      case Threw =>
      case Stored(_, st') => SkippedSuggestionIsInvisible(items[1..], k - 1, fetch, storeFails, insertedAt, st');
    }
  }

  /** A store that accepts the key of every written suggestion accepts every key a run writes. */
  lemma {:induction false} AcceptedTouchedKeys(items: seq<Suggestion>, fetch: QuoteProvider, storeFails: string -> bool)
    requires forall i :: 0 <= i < |items| && Written(items[i], fetch) ==> !storeFails(StoreKey(items[i]))
    ensures forall k :: k in Touched(items, fetch) ==> !storeFails(k)
    decreases |items|
  {
    if |items| > 0 {
      forall i | 0 <= i < |items[1..]| && Written(items[1..][i], fetch)
        ensures !storeFails(StoreKey(items[1..][i]))
      {
        assert items[1..][i] == items[i + 1];
      }
      AcceptedTouchedKeys(items[1..], fetch, storeFails);
    }
  }

  /** A list whose every suggestion is written is kept whole. */
  lemma {:induction false} KeptAllWritten(items: seq<Suggestion>, fetch: QuoteProvider)
    requires forall i {:trigger Written(items[i], fetch)} :: 0 <= i < |items| ==> Written(items[i], fetch)
    ensures Kept(items, fetch) == items
    decreases |items|
  {
    if |items| > 0 {
      var tail := items[1..];
      forall i | 0 <= i < |tail|
        ensures Written(tail[i], fetch)
      {
        assert tail[i] == items[i + 1];
        assert Written(items[i + 1], fetch);
      }
      KeptAllWritten(tail, fetch);
      assert Written(items[0], fetch);
      assert Kept(items, fetch) == [items[0]] + Kept(tail, fetch);
      assert items == [items[0]] + tail;
    }
  }

  /**
   * A run over readable elements whose every key the store accepts
   * completes, with one document per kept suggestion carrying its role.
   */
  lemma CompletedRun(items: seq<Suggestion>, fetch: QuoteProvider, storeFails: string -> bool,
                     insertedAt: int, st: Store)
    requires forall i :: 0 <= i < |items| ==> items[i].Suggestion?
    requires forall i :: 0 <= i < |items| && Written(items[i], fetch) ==> !storeFails(StoreKey(items[i]))
    ensures var r := SyncAIStocks(items, fetch, storeFails, insertedAt, st);
            && r.Completed?
            && |r.enriched| == |Kept(items, fetch)|
            && forall i :: 0 <= i < |r.enriched| ==> r.enriched[i].aiRole == Kept(items, fetch)[i].role
  {
    AcceptedTouchedKeys(items, fetch, storeFails);
    AbortedIffStoreFailure(items, fetch, storeFails, insertedAt, st);
    SyncedDocuments(items, fetch, storeFails, insertedAt, st);
  }

  /** Suggestion `s` reaches the store and the store accepts its key. */
  predicate Lands(s: Suggestion, fetch: QuoteProvider, storeFails: string -> bool) {
    s.Suggestion? && s.symbol.Some? && Written(s, fetch) && !storeFails(StoreKey(s))
  }

  /**
   * A run whose every suggestion is written and whose every key the store
   * accepts completes with one document per suggestion, in input order.
   */
  lemma AllWrittenRun(items: seq<Suggestion>, fetch: QuoteProvider, storeFails: string -> bool,
                      insertedAt: int, st: Store)
    requires forall i :: 0 <= i < |items| ==> items[i].Suggestion?
    requires forall i {:trigger Lands(items[i], fetch, storeFails)} :: 0 <= i < |items| ==> Lands(items[i], fetch, storeFails)
    ensures var r := SyncAIStocks(items, fetch, storeFails, insertedAt, st);
            && r.Completed?
            && |r.enriched| == |items|
            && forall i :: 0 <= i < |items| ==> r.enriched[i].aiRole == items[i].role
  {
    forall i | 0 <= i < |items|
      ensures Written(items[i], fetch) && !storeFails(StoreKey(items[i]))
    {
      assert Lands(items[i], fetch, storeFails);
    }
    KeptAllWritten(items, fetch);
    CompletedRun(items, fetch, storeFails, insertedAt, st);
  }

  /** Leaving out element `k` keeps the others in order, each still landing. */
  lemma WithoutOneLands(items: seq<Suggestion>, k: nat, fetch: QuoteProvider, storeFails: string -> bool)
    requires k < |items|
    requires forall i :: 0 <= i < |items| ==> items[i].Suggestion?
    requires forall i {:trigger Lands(items[i], fetch, storeFails)} :: 0 <= i < |items| && i != k ==> Lands(items[i], fetch, storeFails)
    ensures var rest := items[..k] + items[k + 1..];
            && |rest| == |items| - 1
            && (forall j :: 0 <= j < k ==> rest[j] == items[j])
            && (forall j :: k <= j < |rest| ==> rest[j] == items[j + 1])
            && (forall j :: 0 <= j < |rest| ==> rest[j].Suggestion?)
            && (forall j {:trigger Lands(rest[j], fetch, storeFails)} :: 0 <= j < |rest| ==> Lands(rest[j], fetch, storeFails))
  {
    var rest := items[..k] + items[k + 1..];
    forall j | 0 <= j < |rest|
      ensures Lands(rest[j], fetch, storeFails)
    {
      if j < k {
        assert rest[j] == items[j];
        assert Lands(items[j], fetch, storeFails);
      } else {
        assert rest[j] == items[j + 1];
        assert Lands(items[j + 1], fetch, storeFails);
      }
    }
  }

  /**
   * One failing fetch among written suggestions costs only its own
   * document: the others come back, in input order.
   */
  lemma FetchFailureIsIsolated(items: seq<Suggestion>, k: nat, fetch: QuoteProvider,
                               storeFails: string -> bool, insertedAt: int, st: Store)
    requires forall i :: 0 <= i < |items| ==> items[i].Suggestion?
    requires k < |items| && !Written(items[k], fetch)
    requires forall i {:trigger Lands(items[i], fetch, storeFails)} :: 0 <= i < |items| && i != k ==> Lands(items[i], fetch, storeFails)
    ensures var r := SyncAIStocks(items, fetch, storeFails, insertedAt, st);
            && r.Completed?
            && |r.enriched| == |items| - 1
            && (forall i :: 0 <= i < k ==> r.enriched[i].aiRole == items[i].role)
            && (forall i :: k < i < |items| ==> r.enriched[i - 1].aiRole == items[i].role)
  {
    WithoutOneLands(items, k, fetch, storeFails);
    var rest := items[..k] + items[k + 1..];
    AllWrittenRun(rest, fetch, storeFails, insertedAt, st);
    SkippedSuggestionIsInvisible(items, k, fetch, storeFails, insertedAt, st);
  }

  // ----- Idempotence -----

  /**
   * Two stores a run cannot tell apart: they agree off the keys the run
   * writes, and on those keys agree in every field the run does not write.
   */
  ghost predicate Indistinguishable(a: Store, b: Store, touched: set<string>, insertedAt: int) {
    && (forall k :: k !in touched ==> (k in a <==> k in b))
    && (forall k :: k !in touched && k in a ==> a[k] == b[k])
    && (forall k :: k in touched ==> SameUnsyncedFields(Base(a, k, insertedAt), Base(b, k, insertedAt)))
  }

  /** With nothing left to write, indistinguishable stores are equal. */
  lemma IndistinguishableWithoutWrites(a: Store, b: Store, insertedAt: int)
    requires Indistinguishable(a, b, {}, insertedAt)
    ensures a == b
  {
    assert a.Keys == b.Keys;
  }

  /** Upserting one update into two indistinguishable stores gives the same document and stores still indistinguishable off its key. */
  lemma UpsertKeepsIndistinguishable(u: SyncUpdate, rest: set<string>, insertedAt: int, a: Store, b: Store)
    requires Indistinguishable(a, b, {u.symbol} + rest, insertedAt)
    ensures Upsert(a, u, insertedAt)[u.symbol] == Upsert(b, u, insertedAt)[u.symbol]
    ensures Indistinguishable(Upsert(a, u, insertedAt), Upsert(b, u, insertedAt), rest, insertedAt)
  {
    var a', b' := Upsert(a, u, insertedAt), Upsert(b, u, insertedAt);
    assert SameUnsyncedFields(Base(a, u.symbol, insertedAt), Base(b, u.symbol, insertedAt));
    CarriedRecordsAgree(a'[u.symbol], b'[u.symbol], u);
    forall k | k !in rest
      ensures (k in a' <==> k in b')
    {
    }
    forall k | k !in rest && k in a'
      ensures a'[k] == b'[k]
    {
    }
    forall k | k in rest
      ensures SameUnsyncedFields(Base(a', k, insertedAt), Base(b', k, insertedAt))
    {
      if k != u.symbol {
        assert Base(a', k, insertedAt) == Base(a, k, insertedAt);
        assert Base(b', k, insertedAt) == Base(b, k, insertedAt);
      }
    }
  }

  /**
   * One step on two indistinguishable stores: the same outcome, the same
   * document, and stores the rest of the run still cannot tell apart.
   */
  lemma StepSeesOnlyUnsyncedFields(s: Suggestion, rest: set<string>, fetch: QuoteProvider,
                                   storeFails: string -> bool, insertedAt: int, a: Store, b: Store)
    requires Written(s, fetch) ==> Indistinguishable(a, b, {StoreKey(s)} + rest, insertedAt)
    requires !Written(s, fetch) ==> Indistinguishable(a, b, rest, insertedAt)
    ensures var oa := SyncStep(s, fetch, storeFails, insertedAt, a);
            var ob := SyncStep(s, fetch, storeFails, insertedAt, b);
            && (oa.Skipped? <==> ob.Skipped?)
            && (oa.Threw? <==> ob.Threw?)
            && (oa.Stored? ==> ob.Stored? && oa.doc == ob.doc && Indistinguishable(oa.after, ob.after, rest, insertedAt))
  {
    var oa := SyncStep(s, fetch, storeFails, insertedAt, a);
    if oa.Stored? {
      UpsertKeepsIndistinguishable(BuildUpdate(s, Fetched(s, fetch).value), rest, insertedAt, a, b);
    }
  }

  /** A run gives the same outcome on two stores it cannot tell apart. */
  lemma {:induction false} SyncSeesOnlyUnsyncedFields(items: seq<Suggestion>, fetch: QuoteProvider,
                                                      storeFails: string -> bool, insertedAt: int, a: Store, b: Store)
    requires Indistinguishable(a, b, Touched(items, fetch), insertedAt)
    ensures SyncAIStocks(items, fetch, storeFails, insertedAt, a).Completed? <==>
            SyncAIStocks(items, fetch, storeFails, insertedAt, b).Completed?
    ensures SyncAIStocks(items, fetch, storeFails, insertedAt, a).Completed? ==>
            SyncAIStocks(items, fetch, storeFails, insertedAt, a) == SyncAIStocks(items, fetch, storeFails, insertedAt, b)
    decreases |items|
  {
    if |items| == 0 {
      IndistinguishableWithoutWrites(a, b, insertedAt);
    } else {
      var s := items[0];
      StepSeesOnlyUnsyncedFields(s, Touched(items[1..], fetch), fetch, storeFails, insertedAt, a, b);
      var oa := SyncStep(s, fetch, storeFails, insertedAt, a);
      var ob := SyncStep(s, fetch, storeFails, insertedAt, b);
      if oa.Skipped? {
        SyncSeesOnlyUnsyncedFields(items[1..], fetch, storeFails, insertedAt, a, b);
      } else if oa.Stored? {
        SyncSeesOnlyUnsyncedFields(items[1..], fetch, storeFails, insertedAt, oa.after, ob.after);
      }
    }
  }

  /** A store and the store a run leaves differ only where that run writes. */
  lemma WritesOnlyIndistinguishable(st: Store, final: Store, touched: set<string>, insertedAt: int)
    requires WritesOnly(st, final, touched, insertedAt)
    ensures Indistinguishable(st, final, touched, insertedAt)
  {
    forall k | k in touched
      ensures SameUnsyncedFields(Base(st, k, insertedAt), Base(final, k, insertedAt))
    {
      assert Base(final, k, insertedAt) == final[k];
    }
  }

  /**
   * A run that writes only keys already stored creates no document, so the
   * clock reading a new document would be stamped with does not matter.
   */
  lemma {:induction false} SyncClockIrrelevant(items: seq<Suggestion>, fetch: QuoteProvider,
                                               storeFails: string -> bool, t1: int, t2: int, st: Store)
    requires Touched(items, fetch) <= st.Keys
    ensures SyncAIStocks(items, fetch, storeFails, t1, st) == SyncAIStocks(items, fetch, storeFails, t2, st)
    decreases |items|
  {
    if |items| > 0 {
      var s := items[0];
      if Written(s, fetch) {
        var u := BuildUpdate(s, Fetched(s, fetch).value);
        assert u.symbol in st;
        assert Base(st, u.symbol, t1) == Base(st, u.symbol, t2);
        var st' := Upsert(st, u, t1);
        assert st' == Upsert(st, u, t2);
        SyncClockIrrelevant(items[1..], fetch, storeFails, t1, t2, st');
      } else {
        SyncClockIrrelevant(items[1..], fetch, storeFails, t1, t2, st);
      }
    }
  }

  /** Repeating a completed run on its own result, reading the same clock, changes nothing. */
  lemma RerunSameClock(items: seq<Suggestion>, fetch: QuoteProvider,
                       storeFails: string -> bool, insertedAt: int, st: Store)
    requires SyncAIStocks(items, fetch, storeFails, insertedAt, st).Completed?
    ensures var first := SyncAIStocks(items, fetch, storeFails, insertedAt, st);
            SyncAIStocks(items, fetch, storeFails, insertedAt, first.store) == first
  {
    var first := SyncAIStocks(items, fetch, storeFails, insertedAt, st);
    SyncFrame(items, fetch, storeFails, insertedAt, st);
    WritesOnlyIndistinguishable(st, first.store, Touched(items, fetch), insertedAt);
    SyncSeesOnlyUnsyncedFields(items, fetch, storeFails, insertedAt, st, first.store);
  }

  /**
   * Running the same batch again with the same quotes, at any later (or
   * earlier) clock reading, returns the same documents and leaves the store
   * exactly as the first run left it: every key it writes is stored by then.
   */
  lemma SyncIdempotent(items: seq<Suggestion>, fetch: QuoteProvider,
                       storeFails: string -> bool, insertedAt: int, rerunAt: int, st: Store)
    requires SyncAIStocks(items, fetch, storeFails, insertedAt, st).Completed?
    ensures var first := SyncAIStocks(items, fetch, storeFails, insertedAt, st);
            SyncAIStocks(items, fetch, storeFails, rerunAt, first.store) == first
  {
    var first := SyncAIStocks(items, fetch, storeFails, insertedAt, st);
    RerunSameClock(items, fetch, storeFails, insertedAt, st);
    SyncFrame(items, fetch, storeFails, insertedAt, st);
    SyncClockIrrelevant(items, fetch, storeFails, insertedAt, rerunAt, first.store);
  }
}

=== FILE: text.dfy ===
/**
 * The string operations the server relies on: JavaScript truthiness of a
 * string, `String.prototype.toUpperCase` (on ASCII letters) and
 * `String.prototype.trim` (on the ECMAScript white-space set).
 */
module Text {
  import opened Wrappers

  /** `if (!s)` in JavaScript: a missing value and the empty string are falsy. */
  predicate Truthy(s: Option<string>) {
    s.Some? && s.value != ""
  }

  predicate IsAsciiLower(c: char) {
    'a' <= c <= 'z'
  }

  function UpperChar(c: char): char {
    if IsAsciiLower(c) then (c as int - 32) as char else c
  }

  /** Upper-cases every ASCII letter and keeps every other character. */
  function ToUpper(s: string): (r: string)
    ensures |r| == |s|
    ensures forall i :: 0 <= i < |s| && IsAsciiLower(s[i]) ==> r[i] as int == s[i] as int - 32
    ensures forall i :: 0 <= i < |s| && !IsAsciiLower(s[i]) ==> r[i] == s[i]
    ensures forall i :: 0 <= i < |r| ==> !IsAsciiLower(r[i])
  {
    seq(|s|, i requires 0 <= i < |s| => UpperChar(s[i]))
  }

  /** Upper-casing twice is upper-casing once. */
  lemma ToUpperIdempotent(s: string)
    ensures ToUpper(ToUpper(s)) == ToUpper(s)
  {
    var u := ToUpper(s);
    assert forall i :: 0 <= i < |u| ==> ToUpper(u)[i] == u[i];
  }

  /** The white space and line terminators that `trim` removes. */
  predicate IsSpace(c: char) {
    || c == ' ' || c == '\t' || c == '\n' || c == '\r'
    || c == '\U{000B}' || c == '\U{000C}' || c == '\U{00A0}' || c == '\U{1680}'
    || ('\U{2000}' <= c <= '\U{200A}')
    || c == '\U{2028}' || c == '\U{2029}' || c == '\U{202F}' || c == '\U{205F}'
    || c == '\U{3000}' || c == '\U{FEFF}'
  }

  /** Drops the leading white space: the result is a suffix of `s`. */
  function TrimStart(s: string): (r: string)
    ensures |r| <= |s| && r == s[|s| - |r|..]
    ensures forall i :: 0 <= i < |s| - |r| ==> IsSpace(s[i])
    ensures r == [] || !IsSpace(r[0])
    decreases |s|
  {
    if |s| > 0 && IsSpace(s[0]) then TrimStart(s[1..]) else s
  }

  /** Drops the trailing white space: the result is a prefix of `s`. */
  function TrimEnd(s: string): (r: string)
    ensures |r| <= |s| && r == s[..|r|]
    ensures forall i :: |r| <= i < |s| ==> IsSpace(s[i])
    ensures r == [] || !IsSpace(r[|r| - 1])
    decreases |s|
  {
    if |s| > 0 && IsSpace(s[|s| - 1]) then TrimEnd(s[..|s| - 1]) else s
  }

  predicate AllSpace(p: string) {
    forall k :: 0 <= k < |p| ==> IsSpace(p[k])
  }

  /** Removes the white space at both ends and nothing else: the result is a slice of `s` between white-space runs. */
  function Trim(s: string): (r: string)
    ensures |r| <= |s|
    ensures r == [] || (!IsSpace(r[0]) && !IsSpace(r[|r| - 1]))
    ensures exists i, j :: 0 <= i <= j <= |s| && r == s[i..j] && AllSpace(s[..i]) && AllSpace(s[j..])
  {
    var t := TrimStart(s);
    var i := |s| - |t|;
    var r := TrimEnd(t);
    assert r == s[i..i + |r|];
    assert AllSpace(s[..i]);
    var tail := s[i + |r|..];
    assert AllSpace(tail) by {
      forall k | 0 <= k < |tail|
        ensures IsSpace(tail[k])
      {
        assert tail[k] == t[|r| + k];
      }
    }
    r
  }

  /** Leading white space in front of a string that starts with a non-space is dropped exactly. */
  lemma {:induction false} TrimStartDropsPadding(p: string, x: string)
    requires AllSpace(p)
    requires x == [] || !IsSpace(x[0])
    ensures TrimStart(p + x) == x
    decreases |p|
  {
    if |p| == 0 {
      assert p + x == x;
    } else {
      assert (p + x)[1..] == p[1..] + x;
      TrimStartDropsPadding(p[1..], x);
    }
  }

  /** Trailing white space after a string that ends with a non-space is dropped exactly. */
  lemma {:induction false} TrimEndDropsPadding(x: string, q: string)
    requires AllSpace(q)
    requires x == [] || !IsSpace(x[|x| - 1])
    ensures TrimEnd(x + q) == x
    decreases |q|
  {
    if |q| == 0 {
      assert x + q == x;
    } else {
      assert (x + q)[..|x + q| - 1] == x + q[..|q| - 1];
      TrimEndDropsPadding(x, q[..|q| - 1]);
    }
  }

  /** White space followed by white space is white space. */
  lemma AllSpaceConcat(a: string, b: string)
    requires AllSpace(a) && AllSpace(b)
    ensures AllSpace(a + b)
  {
    forall k | 0 <= k < |a + b|
      ensures IsSpace((a + b)[k])
    {
      if k < |a| {
        assert (a + b)[k] == a[k];
      } else {
        assert (a + b)[k] == b[k - |a|];
      }
    }
  }

  /** A string of white space trims to nothing. */
  lemma AllSpaceTrimsToEmpty(s: string)
    requires AllSpace(s)
    ensures TrimStart(s) == [] && Trim(s) == []
  {
  }

  /** Any white-space padding around a trimmed string is removed, and only it. */
  lemma TrimDropsPadding(p: string, x: string, q: string)
    requires AllSpace(p) && AllSpace(q)
    requires Trim(x) == x
    ensures Trim(p + x + q) == x
  {
    var y := p + x + q;
    if x == [] {
      assert p + x == p;
      AllSpaceConcat(p, q);
      AllSpaceTrimsToEmpty(y);
    } else {
      assert !IsSpace(x[0]) && !IsSpace(x[|x| - 1]);
      assert y == p + (x + q);
      TrimStartDropsPadding(p, x + q);
      assert TrimStart(y) == x + q;
      TrimEndDropsPadding(x, q);
    }
  }

  /** A string without surrounding white space is left alone. */
  lemma TrimKeepsTrimmed(s: string)
    requires s == [] || (!IsSpace(s[0]) && !IsSpace(s[|s| - 1]))
    ensures Trim(s) == s
  {
  }

  /** Trimming twice is trimming once. */
  lemma TrimIdempotent(s: string)
    ensures Trim(Trim(s)) == Trim(s)
  {
    TrimKeepsTrimmed(Trim(s));
  }
}

=== FILE: wrappers.dfy ===
/** Optional values: JavaScript's `null` and `undefined` both become `None`. */
module Wrappers {

  datatype Option<+T> = None | Some(value: T)

}
